=== FILE: README.md ===
# Catalog ingestion backend, modelled in Dafny

This project models the backend of a Convex app that turns an Instagram
handle into a shoppable catalog. It covers:

- the per-request ingestion run (`ingestInstagramPosts`) and its older
  variant;
- the store operations the run relies on (catalog requests, products,
  merchants);
- the decision logic of the three stage wrappers: caption extraction, image
  processing, and payment links through Mercado Pago.

The durable store is an immutable value `Schema.Store`, threaded through
pure functions. It holds:

- `requests`: a map from generated request ids to records;
- `products` and `merchants`: sequences in creation order, which is what
  `order("desc")` and `first()` walk;
- one counter, `nextId`, that issues every fresh document id.

`Schema.Valid` says that ids are fresh and grow with creation order. Every
mutation keeps it.

Collaborators are oracle inputs:

- the text model and `JSON.parse`;
- the image fetch, the image model, the upload URL, the upload and the
  public-URL lookup;
- the payment provider's answer;
- the OAuth token response;
- whether each status write, draft write and patch throws.

`Date.now()` is a parameter `now`.

Modules follow the source files:

| module | file |
|---|---|
| `Values` | shared JavaScript semantics: `undefined`/`null`, truthiness, `a \|\| b` |
| `Schema` | `convex/schema.ts` |
| `Requests` | `convex/requests.ts` and `updateStatus` |
| `Products` | `convex/products.ts` and `updateProduct`/`getProduct`/`updateProductLink` |
| `Merchants` | `convex/merchants.ts` |
| `Debug` | `convex/debug.ts` |
| `DebugMerchant` | `convex/debug_merchant.ts` |
| `MercadoPago` | `convex/mercadopago.ts` |
| `ParsePost` | `convex/steps/parse-post.ts` |
| `ProcessImage` | `convex/steps/process_image.ts` |
| `ProcessImageEarly` | `convex/steps/process-image.ts` |
| `Workflow` | `convex/instagram_ingestion_workflow.ts` |
| `FetchPosts` | `convex/fetch_posts.ts` |

## Behaviour worth knowing

- **No deduplication.** A post already listed is listed again
  (`Workflow.SamePostTwice`).
- **No batching or concurrency.** Posts run strictly one after another, in
  input order.
- **No answer validation.** The extraction's answer is not validated, and
  there is no brand or price normalisation. A `null` price is skipped, but a
  missing price is not.
- **`addProducts` marks the request `completed` on every call.** It does so
  even for an empty list. So the ingestion run's status reads `completed`
  after the first saved draft, while posts are still being processed.
- **`addProducts` returns nothing.** The run nevertheless reads
  `productIds[0]`.
  - `Workflow.DraftReply` covers three cases: the write throws; the write
    returns nothing, which is the code as written, so the index throws after
    the draft is committed; or the write returns the id, which is what the
    run expects.
  - With the id, the image, link and patch stages are reachable.
- **The draft is always rejected as written.** The draft leaves out
  `processedImageUrl`, which the validator of `addProducts` requires.
  `Workflow.AsWrittenDraftRejected` and `Workflow.AsWrittenRunListsNothing`
  state the consequence: no product is written and nothing is listed.
- **The preference goes out in `ARS`.** The run asks for it without a
  currency, so `createPreference` falls back to `ARS`, while the listing says
  `CLP` (`Workflow.PreferenceInDefaultCurrency`).
- **Where errors are caught.** `createPreference` rethrows provider errors.
  Only the ingestion run swallows them.
- **The extraction step of the runs.**
  - `steps/parse_post`, which the runs import, is modelled as an oracle of
    type `Outcome<Option<Extracted>>`, because it may throw.
  - `steps/parse-post.ts` (`ParsePost`) never throws.
    `Workflow.EmptyCaptionSkipped` composes the run with it.
- **Functions the code calls but does not define.** `requests.updateStatus`,
  `products.updateProduct`, `products.getProduct`,
  `products.updateProductLink` and `files.*` are not defined in the modelled
  files.
  - The first four are modelled as plain store operations: `SetStatus`,
    `UpdateProduct`, `GetProduct` and `UpdateProductLink`.
  - `files.*` is part of the image oracle.

## Model

| member | source | states |
|---|---|---|
| Values.OrElse | convex/instagram_ingestion_workflow.ts:35 | `a \|\| b` on a string-or-undefined: the value when present and non-empty, else the fallback; never empty when the fallback is not |
| Values.DropEmpty | convex/requests.ts:47 | `x \|\| undefined`: present exactly when the input is a non-empty string, and then unchanged |
| Requests.Create | convex/requests.ts:4-14 | inserts exactly one `pending` request with the handle and time, under a fresh id; products and merchants are untouched; validity is kept |
| Requests.GetRequest | convex/requests.ts:16-21 | returns the record exactly when the id exists, else null |
| Requests.InsertAll | convex/requests.ts:40-51 | one document per element, in input order, each with the request id and consecutive fresh ids; earlier products are unchanged |
| Requests.AddProductsHandler | convex/requests.ts:39-56 | inserts every element, then forces the status to `completed`; fails and commits nothing exactly when the request is missing |
| Requests.AddProducts | convex/requests.ts:23-57 | succeeds exactly when every element passes the validator and the request exists; then the documents carry name, price, both image URLs, post URL and link, never currency or handle, and a size only when non-empty; the status is `completed`; on failure nothing changes |
| Requests.AddProductsCompletes | convex/requests.ts:53-55 | a successful call leaves the request `completed` whatever its status was, even for an empty list |
| Requests.RejectsMissingProcessedImage | convex/requests.ts:33 | one element without a processed image URL makes the whole call throw a validation error with no write |
| Requests.SetStatus | convex/instagram_ingestion_workflow.ts:24-27 | sets only this request's status; every other request, the handle, the products and the merchants stay as they were |
| Products.Newest | convex/products.ts:6 | the last `n` products, newest first, one for one |
| Products.GetProducts | convex/products.ts:3-9 | at most 20 products, fewer only when the table is smaller; the newest of the whole table in descending id order; no filter by handle or request |
| Products.GetProduct | convex/mercadopago.ts:158 | a product with that id exactly when one exists, else null |
| Products.UpdateProduct | convex/instagram_ingestion_workflow.ts:91-97 | sets the processed image URL and the link of that product (an undefined link clears it); every other field and product is unchanged; validity is kept |
| Products.UpdateProductLink | convex/mercadopago.ts:185-188 | only that product's link changes; reading the product back yields it with the new link |
| Merchants.FirstWithHandle | convex/merchants.ts:7-9 | the first position whose merchant has the handle, and none exactly when no merchant has it |
| Merchants.GetMerchant | convex/merchants.ts:4-11 | the first merchant in creation order with the handle, or null exactly when none has it |
| Merchants.GetDefaultMerchant | convex/merchants.ts:13-18 | the first merchant, or null exactly when the table is empty; in a valid store it has the smallest id |
| Merchants.SaveMerchant | convex/merchants.ts:20-52 | a known handle: the first match gets the new user id, tokens, expiry and time, keeping its id and handle, and no merchant is added; a new handle: exactly one merchant with all given fields is appended |
| Merchants.SaveThenGet | convex/merchants.ts:20-51 | after saving, looking the handle up yields the saved fields, and every other handle resolves as before |
| Debug.Inspect | convex/debug.ts:4-19 | a missing request yields "Request not found"; otherwise the request's handle and the first merchant in creation order under that same handle, or "No merchant found" exactly when no merchant has it |
| DebugMerchant.InjectTestMerchant | convex/debug_merchant.ts:4-31 | a known handle: only the access token and time change; a new handle: one merchant with the dummy user id, refresh token and expiry 3600; at most one merchant added; the same message in both branches |
| DebugMerchant.InjectThenGet | convex/debug_merchant.ts:14-28 | afterwards the handle resolves to a merchant with the injected token, keeping the earlier user id, refresh token and expiry when the handle was known |
| MercadoPago.GetAuthUrl | convex/mercadopago.ts:17-33 | throws exactly when the app id or the redirect URI is unset; otherwise the URL starts with the authorization endpoint and app id and carries the handle as `state` |
| MercadoPago.NatToDecimal | convex/mercadopago.ts:76 | `String(n)` for `0 <= n <= 2^53`: non-empty, decimal digits only, no leading zero |
| MercadoPago.IntToDecimal | convex/mercadopago.ts:76 | `String(n)` for `\|n\| <= 2^53`: an optional minus sign and at least one digit |
| MercadoPago.IntToDecimalRoundTrip | convex/mercadopago.ts:76 | reading the stored user id back yields the provider's number |
| MercadoPago.ExchangeCode | convex/mercadopago.ts:38-84 | a missing setting throws before anything else; a rejected exchange throws with nothing saved; on success the saved merchant for the handle carries `String(user_id)` and the granted tokens and expiry, and the token data is returned; the store is exactly `saveMerchant`'s, so requests, products and other merchants are unchanged |
| MercadoPago.CreatePreference | convex/mercadopago.ts:91-148 | no merchant: null and no request; otherwise exactly one item (quantity 1, the title, price and image) under the merchant's own token, currency defaulting to `ARS`, fee 0; a provider error is rethrown with the `MP API Error: ` prefix |
| MercadoPago.RegenerateLinkForProduct | convex/mercadopago.ts:154-192 | the provider is asked only after product, request, price and name pass, with the request's handle and the processed (else original) image; when every check passes the provider is always asked, and a non-empty link is stored and returned; a null or empty answer throws; every failure leaves the store unchanged; a success changes nothing but that product's link |
| MercadoPago.RegenerateCheckOrder | convex/mercadopago.ts:158-170 | the checks fail in source order (product, request, then price or name), before any provider call; a price of 0 counts as missing |
| MercadoPago.RegenerateWithoutMerchant | convex/mercadopago.ts:172-182 | without a merchant for the handle the regeneration throws and stores nothing |
| ParsePost.PromptRecoversCaption | convex/steps/parse-post.ts:21-24 | the prompt starts with the instruction and the caption can be read back from between the quotes |
| ParsePost.PromptInjective | convex/steps/parse-post.ts:21-24 | different captions give different prompts |
| ParsePost.TrimStart | convex/steps/parse-post.ts:31 | drops exactly the leading JavaScript white space |
| ParsePost.TrimEnd | convex/steps/parse-post.ts:31 | drops exactly the trailing JavaScript white space |
| ParsePost.Trim | convex/steps/parse-post.ts:31 | removes exactly the leading and trailing white space: the result is the middle slice of the input, everything cut is white space, and the result neither starts nor ends with it |
| ParsePost.StripTicksShape | convex/steps/parse-post.ts:31 | after `replace(/```/g, "")` no "```" is left |
| ParsePost.NoTripleUntouched | convex/steps/parse-post.ts:31 | a text without "```" is left unchanged by both replacements |
| ParsePost.CleanShape | convex/steps/parse-post.ts:31 | the cleaned answer contains no "```" and has no white space at either end |
| ParsePost.CleanIdempotent | convex/steps/parse-post.ts:31 | cleaning a cleaned answer changes nothing |
| ParsePost.CleanPlain | convex/steps/parse-post.ts:31 | an answer without backticks is only trimmed |
| ParsePost.ExtractProductData | convex/steps/parse-post.ts:15-38 | an empty caption answers null with no model call; otherwise the prompt is sent, a model error answers null, and a text answer is cleaned and parsed, unvalidated |
| ProcessImage.FirstInline | convex/steps/process_image.ts:29 | the first part carrying inline data, and none exactly when no part has any |
| ProcessImage.Generated | convex/steps/process_image.ts:11-40 | a model error gives no image; a generated image is the inline data of the first candidate, typed `image/png` when it names no type |
| ProcessImage.ImageToUpload | convex/steps/process_image.ts:53-67 | the generated image when there is one, else the fetched bytes under the header type or `image/jpeg`; the type is never empty |
| ProcessImage.ProcessAndUpload | convex/steps/process_image.ts:42-91 | an upload happens exactly when the fetch and the upload URL succeed; the answer is the public URL (possibly null) when fetch, upload and lookup all succeed, and the input URL on any failure |
| ProcessImage.GeneratorNeverDecidesUrl | convex/steps/process_image.ts:53-67 | the model's answer chooses only the uploaded image, never the URL answered |
| ProcessImageEarly.ProcessAndUpload | convex/steps/process-image.ts:10-68 | the uploaded blob is always the fetched original with its type (default `image/jpeg`); the URL rules match the later stage |
| ProcessImageEarly.AgreesWithoutGeneratedImage | convex/steps/process-image.ts:21-44 | the earlier stage ignores the model, and agrees with the later stage whenever the model offers no image |
| Workflow.KeptImage | convex/instagram_ingestion_workflow.ts:70 | the image stage's URL when it succeeds with a non-empty URL, otherwise the post's display URL |
| Workflow.KeptLink | convex/instagram_ingestion_workflow.ts:75-88 | a link is kept exactly when the call neither throws nor answers null or empty |
| Workflow.InsertDraft | convex/instagram_ingestion_workflow.ts:63-67 | the draft is committed as the newest product, with the fresh id, the request id and the draft's fields, and the request becomes `completed`; every earlier product is unchanged; the run then fails reading `productIds[0]` |
| Workflow.Enrich | convex/instagram_ingestion_workflow.ts:69-103 | a throwing patch changes nothing and faults the post; otherwise the post is listed as the draft plus the kept image and the link `createPreference` answered, present only when one was asked for and the answer was a non-empty URL; one preference request, without a currency, exactly when price and name allow; the patch changes at most the processed image URL and link of product `id`, and no other product |
| Workflow.Drafted | convex/instagram_ingestion_workflow.ts:63-103 | after a committed draft the product count grows by one with the post's URLs and the request is `completed`; listed exactly when the write returns an id and the patch succeeds, and then as the draft plus the kept image and link; in a valid store every earlier product is unchanged |
| Workflow.SaveDraft | convex/instagram_ingestion_workflow.ts:50-67 | a throwing draft write changes nothing and faults the post; a missing request faults it too; otherwise a committed draft, and a listing equal to the draft (name, price, `CLP`, non-empty size, post URLs) plus the kept image and link; in a valid store every earlier product is unchanged |
| Workflow.Post | convex/instagram_ingestion_workflow.ts:33-107 | one post: the caption is examined first; a throwing extraction faults it with the extraction's message and no write; a null answer or null price skips it with no write; a throwing draft write faults it with no write; after a committed draft only that draft is added and the request marked `completed`; listed exactly when extraction is accepted, the draft returns an id, the request exists and the patch succeeds, and then the entry is the draft (extracted name and price, `CLP`, size only when non-empty, the post's URLs) with the kept image and the link `createPreference` answered; exactly one preference request, with no currency, exactly when price > 0 and a name are present; in a valid store every earlier product is unchanged |
| Workflow.Posts | convex/instagram_ingestion_workflow.ts:32-108 | the loop lists at most one entry per post, each in `CLP`; it keeps earlier products' ids, requests and URLs, and changes no request other than marking this one `completed` |
| Workflow.PostsOnlyAppend | convex/instagram_ingestion_workflow.ts:32-108 | in a valid store the loop only appends products: every earlier product keeps its position and every field |
| Workflow.PostsKeepValid | convex/instagram_ingestion_workflow.ts:32-108 | the loop keeps the store valid |
| Workflow.IngestInstagramPosts | convex/instagram_ingestion_workflow.ts:15-126 | a missing request throws before any write; a failing `processing` write propagates without `failed`; success exactly when both status writes succeed, then `completed` with `processed == \|valid\|`; the returned listings are exactly the loop's, in order; a failing `completed` write sets `failed` and rethrows; when the `failed` write throws too, its error propagates and the store is the one the loop left; the run changes only the status of its own request, never its handle or time; once `processing` is written the products are exactly those the loop left, so every draft and patch is kept; in a valid store every earlier product is unchanged; other requests are untouched |
| Workflow.PostsAppend | convex/instagram_ingestion_workflow.ts:32 | running two lists one after the other is running their concatenation: strictly sequential, in input order |
| Workflow.FaultIsolated | convex/instagram_ingestion_workflow.ts:104-107 | a faulting post is absent from the results and the posts after it still run, from the store it left |
| Workflow.FaultedHeadSkipped | convex/instagram_ingestion_workflow.ts:104-107 | a faulting first post contributes nothing, and the rest run from the store it left |
| Workflow.DraftSurvivesFault | convex/instagram_ingestion_workflow.ts:63-107 | a fault after the draft write leaves the draft stored as written |
| Workflow.ListedIsStored | convex/instagram_ingestion_workflow.ts:91-103 | a post that gets listed (accepted extraction, an id back from the draft write, an existing request, a successful patch) is stored under its fresh id exactly as listed, including the processed image and link |
| Workflow.PreferenceErrorSwallowed | convex/instagram_ingestion_workflow.ts:86-88 | a provider error leaves the post listed without a link |
| Workflow.ProviderLinkKept | convex/instagram_ingestion_workflow.ts:77-84 | with a merchant, a positive price, a name and a non-empty link from the provider, the listing carries that link |
| Workflow.PreferenceInDefaultCurrency | convex/instagram_ingestion_workflow.ts:78-83 | the one preference request carries no currency, so the request sent for a seller with a merchant record is in `ARS`, while the listing is in `CLP` |
| Workflow.LinkReadsMerchants | convex/mercadopago.ts:101-113 | the link kept for a post depends only on the merchants table, so the draft written before the call does not change it |
| Workflow.SamePostTwice | convex/instagram_ingestion_workflow.ts:32-67 | the same post twice yields two listings and two documents with the same post URL |
| Workflow.NothingSaved | convex/instagram_ingestion_workflow.ts:40-43 | posts that are skipped, or whose draft write throws, leave the store unchanged and list nothing |
| Workflow.AsWrittenDraftRejected | convex/instagram_ingestion_workflow.ts:51-66 | the draft as built is refused by the `addProducts` validator, with nothing committed |
| Workflow.AsWrittenRunListsNothing | convex/instagram_ingestion_workflow.ts:104-116 | with every draft write refused, the run completes with nothing listed, no product written, and the status `completed` |
| Workflow.EmptyCaptionSkipped | convex/instagram_ingestion_workflow.ts:35-43 | with the extraction stage of `steps/parse-post.ts`, a post without a caption is skipped before any write |
| FetchPosts.Item | convex/fetch_posts.ts:37-47 | the item carries currency `CLP`, the post's URLs, the kept image as processed image, the extracted name, the extracted price (absent when the answer has none), and the size only when non-empty |
| FetchPosts.Collect | convex/fetch_posts.ts:19-48 | succeeds exactly when no extraction throws, else fails with a thrown message; at most one item per post, each in `CLP` with a processed image and no link |
| FetchPosts.IngestPosts | convex/fetch_posts.ts:9-61 | an extraction fault aborts the run with nothing written; nothing collected writes nothing, not even a status; otherwise one `addProducts` with all items in order, which either stores them all after the earlier products and marks the request `completed`, or fails (an invalid item, a missing request) with nothing written; `processed == \|valid\|`; a save changes no request but this one's status and no merchant |
| FetchPosts.CollectAppend | convex/fetch_posts.ts:19-48 | collecting a concatenation is collecting each part: the first fault wins, otherwise the items are concatenated in input order |
| FetchPosts.CollectKeepsAll | convex/fetch_posts.ts:39-47 | when every post is kept, item k is built from post k |
| FetchPosts.NothingKept | convex/fetch_posts.ts:26-29 | posts with a null answer or a null price contribute nothing |
| FetchPosts.OneIncompleteItemLosesBatch | convex/fetch_posts.ts:51-56 | one item without a name or price makes the single bulk save throw, losing every item of the run |
| FetchPosts.NothingCollectedNothingWritten | convex/fetch_posts.ts:51-56 | a run that collects nothing returns zero results and leaves the store unchanged |

## Left out

- The React UI under `src/`, the scraping client in `convex/actions.ts`, the HTTP routes in `convex/http.ts` and `convex/test_utils.ts`: user interface and network plumbing.
- The prompt texts of `convex/prompts.ts` and what the language models do with them: both models are oracles.
- Console logging, including the `toLocaleString` price formatting, which has no effect on state.
- Base64, `Buffer` and `Blob` conversions, and the bytes of the image stage: the image model's answer arrives already decoded, and only the blob's bytes and type are kept.
- The HTTP status of the image fetch: the code does not inspect it.
- `JSON.parse` and the shape checks of `v.any()` posts: the parser is a function parameter, and a post is reduced to the fields the runs read.
- JavaScript numbers are modelled as integers. Fractional prices, `NaN` and infinities are not modelled.
- MercadoPago.NatToDecimal, MercadoPago.IntToDecimal: always print the exact decimal digits. JavaScript's `String` agrees only for `|n| <= 2^53`. Above that it prints the shortest form that reads back as the same double, and from `1e21` on it uses exponent form. Provider user ids are far below 2^53, and modelling double rounding would need floating point.
- The HTTP exchange of `exchangeCode`: the token endpoint's answer is an oracle, and only the saved merchant is modelled.
- MercadoPago.GetAuthUrl: does not state the tail after `redirect_uri=`, because `encodeURIComponent` is a parameter.
- MercadoPago.RegenerateLinkForProduct: does not model the "Product has no request ID" check, because the table definition makes `requestId` required, so the check can never fire.
- Workflow.Posts: states only the loop-wide facts (bounds, store preservation, currency). What each post contributes is stated by `Workflow.Post` and composed by `Workflow.PostsAppend` and `Workflow.FaultIsolated`. That the loop leaves earlier products exactly as they were is `Workflow.PostsOnlyAppend`, like validity in `Workflow.PostsKeepValid`.
- The fault of the extraction oracle in `FetchPosts` is the only stage fault there: the image stage of `convex/steps/process_image.ts` never throws, and the bulk save's fault is modelled by `Requests.AddProducts`.
- Concurrent runs for the same request or handle: the code runs each request's posts sequentially and has no guard against a second run, and the model has no concurrency.

=== FILE: debug.dfy ===
/** The debugging query that shows a request's handle and its merchant. */
module Debug {
  import opened Values
  import opened Schema
  import opened Merchants

  const RequestNotFound := "Request not found"
  const NoMerchantFound := "No merchant found"

  /** The `merchant` field: the merchant document, or a fixed text. */
  datatype MerchantView = MerchantRecord(merchant: Merchant) | MerchantText(text: string)

  datatype InspectView = InspectError(error: string) | Inspected(handle: string, merchant: MerchantView)

  /** `inspect`: look the request up, then the first merchant under the
      request's own handle. */
  function Inspect(s: Store, rid: RequestId): (r: InspectView)
    ensures r.InspectError? <==> rid !in s.requests
    ensures r.InspectError? ==> r.error == RequestNotFound
    ensures r.Inspected? ==> r.handle == s.requests[rid].handle
    ensures r.Inspected? && r.merchant.MerchantRecord? ==>
              r.merchant.merchant in s.merchants && r.merchant.merchant.handle == s.requests[rid].handle
    ensures r.Inspected? && r.merchant.MerchantRecord? ==>
              exists i :: 0 <= i < |s.merchants| && s.merchants[i] == r.merchant.merchant
                          && forall j :: 0 <= j < i ==> s.merchants[j].handle != r.handle
    ensures r.Inspected? && r.merchant.MerchantText? ==>
              r.merchant.text == NoMerchantFound
              && forall m | m in s.merchants :: m.handle != s.requests[rid].handle
  {
    if rid !in s.requests then InspectError(RequestNotFound)
    else
      var handle := s.requests[rid].handle;
      match GetMerchant(s, handle)
      case Some(m) => Inspected(handle, MerchantRecord(m))
      case None => Inspected(handle, MerchantText(NoMerchantFound))
  }
}

=== FILE: debug_merchant.dfy ===
/** The debugging mutation that injects a test credential for a handle. */
module DebugMerchant {
  import opened Values
  import opened Schema
  import opened Merchants

  const InjectedMessage := "Inserted/Updated test merchant"
  const DummyUserId := "test_user_id"
  const DummyRefreshToken := "dummy_refresh_token"
  const DummyExpiresIn := 3600

  datatype Injected = Injected(store: Store, message: string)

  /** `injectTestMerchant`: on a known handle only the access token and the
      update time change; on a new handle one merchant is inserted with dummy
      user id, refresh token and expiry.  Both branches answer the same text. */
  function InjectTestMerchant(s: Store, h: string, accessToken: string, now: int): (r: Injected)
    ensures r.message == InjectedMessage
    ensures r.store.requests == s.requests && r.store.products == s.products
    ensures |s.merchants| <= |r.store.merchants| <= |s.merchants| + 1
    ensures GetMerchant(s, h).Some? ==>
              var i := FirstWithHandle(s.merchants, h).value;
              && |r.store.merchants| == |s.merchants|
              && (forall j :: 0 <= j < |s.merchants| && j != i ==> r.store.merchants[j] == s.merchants[j])
              && r.store.merchants[i] == s.merchants[i].(accessToken := accessToken, updatedAt := now)
    ensures GetMerchant(s, h).None? ==>
              r.store.merchants == s.merchants +
                [Merchant(MerchantId(s.nextId), h, DummyUserId, accessToken, DummyRefreshToken, DummyExpiresIn, now)]
    ensures Valid(s) ==> Valid(r.store)
  {
    match FirstWithHandle(s.merchants, h)
    case Some(i) =>
      Injected(s.(merchants := s.merchants[i := s.merchants[i].(accessToken := accessToken, updatedAt := now)]),
               InjectedMessage)
    case None =>
      Injected(s.(merchants := s.merchants + [Merchant(MerchantId(s.nextId), h, DummyUserId, accessToken,
                                                       DummyRefreshToken, DummyExpiresIn, now)],
                  nextId := s.nextId + 1),
               InjectedMessage)
  }

  /** After an injection the handle resolves to a merchant holding the injected
      token; on a known handle the user id, refresh token and expiry it had are
      still there. */
  lemma InjectThenGet(s: Store, h: string, accessToken: string, now: int)
    ensures var m := GetMerchant(InjectTestMerchant(s, h, accessToken, now).store, h);
            && m.Some? && m.value.accessToken == accessToken && m.value.updatedAt == now
            && (GetMerchant(s, h).Some? ==>
                  && m.value.mpUserId == GetMerchant(s, h).value.mpUserId
                  && m.value.refreshToken == GetMerchant(s, h).value.refreshToken
                  && m.value.expiresIn == GetMerchant(s, h).value.expiresIn)
            && (GetMerchant(s, h).None? ==>
                  m.value.mpUserId == DummyUserId && m.value.refreshToken == DummyRefreshToken
                  && m.value.expiresIn == DummyExpiresIn)
  {
    var t := InjectTestMerchant(s, h, accessToken, now).store;
    match FirstWithHandle(s.merchants, h)
    case Some(i) =>
      FirstWithHandleByHandles(s.merchants, t.merchants, h);
    case None =>
      FirstAppended(s.merchants, t.merchants[|s.merchants|], h);
      assert t.merchants == s.merchants + [t.merchants[|s.merchants|]];
  }
}

=== FILE: fetch_posts.dfy ===
/** The earlier ingestion run (`fetch_posts.ts`): extract and process every
    post first, with no per-post error handling and no status writes, then
    save all the collected items with one `addProducts` call (none when
    nothing was collected). */
module FetchPosts {
  import opened Values
  import opened Schema
  import opened Requests
  import opened ParsePost
  import ProcessImage
  import Workflow

  /** A post together with the extraction stage's answer and the image
      stage's collaborators for it. */
  datatype PostInput = PostInput(
    post: Workflow.RawPost,
    extract: string -> Outcome<Option<Extracted>>,
    image: ProcessImage.ImageOracle)

  datatype FetchRun = FetchRun(store: Store, outcome: Outcome<Workflow.Summary>)

  /** The extraction answer for the item's caption. */
  function Answer(x: PostInput): Outcome<Option<Extracted>>
  {
    x.extract(Workflow.Caption(x.post))
  }

  /** The answer yields an item: it is not null and its price is not `null`. */
  predicate Kept(x: PostInput)
    requires Answer(x).Ok?
  {
    Answer(x).value.Some? && !Answer(x).value.value.price.PriceNull?
  }

  /** The item collected for a kept post. */
  function Item(x: PostInput): (p: ProductArg)
    requires Answer(x).Ok? && Kept(x)
    ensures p.currency == Some(Workflow.Currency) && p.mercadoPagoLink.None?
    ensures p.originalImageUrl == x.post.displayUrl && p.igPostUrl == x.post.url
    ensures p.processedImageUrl == Some(Workflow.KeptImage(x.post, x.image))
    ensures p.productName == Answer(x).value.value.productName
    ensures p.price.Some? <==> Answer(x).value.value.price.PriceNumber?
    ensures p.price == Workflow.PriceValue(Answer(x).value.value.price)
    ensures p.size == DropEmpty(Answer(x).value.value.size)
  {
    var e := Answer(x).value.value;
    ProductArg(e.productName, Workflow.PriceValue(e.price), Some(Workflow.Currency), DropEmpty(e.size),
               x.post.displayUrl, Some(Workflow.KeptImage(x.post, x.image)), x.post.url, None)
  }

  /** The collecting loop: the first extraction that throws aborts the whole
      run; skipped posts contribute nothing. */
  function Collect(items: seq<PostInput>): (r: Outcome<seq<ProductArg>>)
    ensures r.Ok? <==> forall k :: 0 <= k < |items| ==> Answer(items[k]).Ok?
    ensures r.Fault? ==> exists k :: 0 <= k < |items| && Answer(items[k]) == Fault(r.message)
    ensures r.Ok? ==> |r.value| <= |items|
    ensures r.Ok? ==> forall k :: 0 <= k < |r.value| ==>
              r.value[k].currency == Some(Workflow.Currency) && r.value[k].processedImageUrl.Some?
              && r.value[k].mercadoPagoLink.None?
    decreases |items|
  {
    if items == [] then Ok([])
    else
      var x := items[0];
      match Answer(x)
      case Fault(m) => Fault(m)
      case Ok(_) =>
        var rest := Collect(items[1..]);
        assert forall k :: 1 <= k < |items| ==> items[1..][k - 1] == items[k];
        if rest.Fault? then rest
        else Ok((if Kept(x) then [Item(x)] else []) + rest.value)
  }

  /** `ingestInstagramPosts` of `fetch_posts.ts`. */
  function IngestPosts(s: Store, rid: RequestId, items: seq<PostInput>): (r: FetchRun)
    ensures r.outcome.Fault? ==> r.store == s
    ensures Collect(items).Fault? ==> r.outcome == Fault(Collect(items).message)
    ensures r.outcome.Ok? <==>
              Collect(items).Ok? && (Collect(items).value == [] || (rid in s.requests && forall p | p in Collect(items).value :: Admits(p)))
    ensures r.outcome.Ok? ==> r.outcome.value.processed == |r.outcome.value.valid| && r.outcome.value.valid == Collect(items).value
    ensures r.outcome.Ok? && r.outcome.value.valid == [] ==> r.store == s
    ensures r.outcome.Ok? && r.outcome.value.valid != [] ==>
              && StatusOf(r.store, rid) == Some(Completed)
              && |r.store.products| == |s.products| + |r.outcome.value.valid|
              && r.store.products[..|s.products|] == s.products
              && forall k :: 0 <= k < |r.outcome.value.valid| ==>
                   StoredAs(r.store.products[|s.products| + k], rid, r.outcome.value.valid[k])
    ensures r.outcome.Ok? && r.outcome.value.valid != [] ==>
              && r.store.requests == s.requests[rid := s.requests[rid].(status := Completed)]
              && r.store.merchants == s.merchants
    ensures Valid(s) ==> Valid(r.store)
  {
    match Collect(items)
    case Fault(m) => FetchRun(s, Fault(m))
    case Ok(valid) =>
      if valid == [] then FetchRun(s, Ok(Workflow.Summary(0, [])))
      else
        var c := AddProducts(s, rid, valid);
        match c.outcome
        case Fault(m) => FetchRun(s, Fault(m))
        case Ok(_) => FetchRun(c.store, Ok(Workflow.Summary(|valid|, valid)))
  }

  // ---------------------------------------------------------------------------
  // Properties

  /** Collecting a concatenation is collecting each part: the first fault
      wins, otherwise the items are concatenated in order. */
  lemma {:induction false} CollectAppend(a: seq<PostInput>, b: seq<PostInput>)
    ensures Collect(a + b) ==
              if Collect(a).Fault? then Collect(a)
              else if Collect(b).Fault? then Collect(b)
              else Ok(Collect(a).value + Collect(b).value)
    decreases |a|
  {
    if a == [] {
      assert a + b == b;
      assert Collect(b).Ok? ==> [] + Collect(b).value == Collect(b).value;
    } else {
      assert (a + b)[0] == a[0] && (a + b)[1..] == a[1..] + b;
      CollectAppend(a[1..], b);
      if Answer(a[0]).Ok? && Collect(a[1..]).Ok? && Collect(b).Ok? {
        var head := if Kept(a[0]) then [Item(a[0])] else [];
        assert head + (Collect(a[1..]).value + Collect(b).value) == (head + Collect(a[1..]).value) + Collect(b).value;
      }
    }
  }

  /** When every extraction answers a post with a price that is not `null`,
      every post yields exactly one item, in order, for its own post. */
  lemma {:induction false} CollectKeepsAll(items: seq<PostInput>)
    requires forall k :: 0 <= k < |items| ==> Answer(items[k]).Ok? && Kept(items[k])
    ensures Collect(items).Ok? && |Collect(items).value| == |items|
    ensures forall k :: 0 <= k < |items| ==> Collect(items).value[k] == Item(items[k])
    decreases |items|
  {
    if items != [] {
      assert forall k :: 1 <= k < |items| ==> items[1..][k - 1] == items[k];
      CollectKeepsAll(items[1..]);
      var v := Collect(items).value;
      assert v == [Item(items[0])] + Collect(items[1..]).value;
      forall k | 0 <= k < |items|
        ensures v[k] == Item(items[k])
      {
        if k > 0 {
          assert v[k] == Collect(items[1..]).value[k - 1];
        }
      }
    }
  }

  /** The batch is all or nothing: one collected item without a name or a
      price makes the validator refuse the whole `addProducts` call, so no
      product of the run is saved. */
  lemma OneIncompleteItemLosesBatch(s: Store, rid: RequestId, items: seq<PostInput>, k: nat)
    requires Collect(items).Ok? && k < |Collect(items).value|
    requires Collect(items).value[k].productName.None? || Collect(items).value[k].price.None?
    ensures IngestPosts(s, rid, items).store == s
    ensures IngestPosts(s, rid, items).outcome == Fault(ValidationError)
  {
    var v := Collect(items).value;
    assert v[k] in v && !Admits(v[k]);
  }

  /** A run that collects nothing writes nothing, not even the status. */
  lemma NothingCollectedNothingWritten(s: Store, rid: RequestId, items: seq<PostInput>)
    requires forall k :: 0 <= k < |items| ==> Answer(items[k]).Ok? && !Kept(items[k])
    ensures IngestPosts(s, rid, items) == FetchRun(s, Ok(Workflow.Summary(0, [])))
  {
    NothingKept(items);
  }

  lemma {:induction false} NothingKept(items: seq<PostInput>)
    requires forall k :: 0 <= k < |items| ==> Answer(items[k]).Ok? && !Kept(items[k])
    ensures Collect(items) == Ok([])
    decreases |items|
  {
    if items != [] {
      assert forall k :: 1 <= k < |items| ==> items[1..][k - 1] == items[k];
      NothingKept(items[1..]);
    }
  }
}

=== FILE: mercadopago.dfy ===
/** The payment-provider wrappers: the seller-connection URL, the token
    exchange's merchant record, payment-preference creation with the seller's
    own token, and the manual link regeneration for one product. */
module MercadoPago {
  import opened Values
  import opened Schema
  import opened Merchants
  import Products

  // ---------------------------------------------------------------------------
  // Connecting a seller

  /** The provider settings read from the environment; an unset variable is "". */
  datatype MpConfig = MpConfig(appId: string, clientSecret: string, redirectUri: string)

  const AuthBase := "https://auth.mercadopago.com/authorization?client_id="
  const MissingAuthConfig := "Missing MP_APP_ID or MP_REDIRECT_URI env vars"

  /** `getAuthUrl`: refuses when the app id or the redirect URI is unset;
      otherwise the authorization URL carrying the handle, unencoded, as
      `state`.  `encode` is `encodeURIComponent`, applied to the redirect URI
      only. */
  function GetAuthUrl(config: MpConfig, handle: string, encode: string -> string): (r: Outcome<string>)
    ensures r.Fault? <==> config.appId == "" || config.redirectUri == ""
    ensures r.Fault? ==> r.message == MissingAuthConfig
    ensures r.Ok? ==>
              var head := AuthHead(config.appId);
              && |head| + |StateParam(handle)| <= |r.value|
              && r.value[..|AuthBase + config.appId|] == AuthBase + config.appId
              && r.value[|head|..|head| + |StateParam(handle)|] == StateParam(handle)
  {
    if config.appId == "" || config.redirectUri == "" then Fault(MissingAuthConfig)
    else
      var head := AuthHead(config.appId);
      var url := head + StateParam(handle) + encode(config.redirectUri);
      assert url == (AuthBase + config.appId) + ("&response_type=code&platform_id=mp" + StateParam(handle) + encode(config.redirectUri));
      assert url[|head|..|head| + |StateParam(handle)|] == StateParam(handle);
      Ok(url)
  }

  /** The URL up to the `state` parameter. */
  function AuthHead(appId: string): string
  {
    AuthBase + appId + "&response_type=code&platform_id=mp"
  }

  function StateParam(handle: string): string
  {
    "&state=" + handle + "&redirect_uri="
  }

  /** The decimal digit for `d`. */
  function DigitChar(d: nat): (c: char)
    requires d < 10
    ensures '0' <= c <= '9'
  {
    "0123456789"[d]
  }

  function DigitValue(c: char): (d: nat)
    requires '0' <= c <= '9'
    ensures d < 10
  {
    (c as int - '0' as int) as nat
  }

  /** JavaScript `String(n)` for a non-negative integer: its decimal digits. */
  function NatToDecimal(n: nat): (s: string)
    ensures |s| > 0
    ensures forall i :: 0 <= i < |s| ==> '0' <= s[i] <= '9'
    ensures |s| > 1 ==> s[0] != '0'
  {
    if n < 10 then [DigitChar(n)] else NatToDecimal(n / 10) + [DigitChar(n % 10)]
  }

  /** JavaScript `String(n)` for an integer. */
  function IntToDecimal(n: int): (s: string)
    ensures DecimalForm(s)
  {
    if n < 0 then
      var d := NatToDecimal(-n);
      assert forall i :: 1 <= i < |d| + 1 ==> ("-" + d)[i] == d[i - 1];
      "-" + d
    else NatToDecimal(n)
  }

  /** An optional minus sign followed by at least one decimal digit. */
  predicate DecimalForm(s: string)
  {
    && |s| > 0
    && (s[0] == '-' ==> |s| > 1)
    && forall i :: (if s[0] == '-' then 1 else 0) <= i < |s| ==> '0' <= s[i] <= '9'
  }

  /** Reading decimal digits back. */
  function ParseDigits(s: string): nat
    requires forall i :: 0 <= i < |s| ==> '0' <= s[i] <= '9'
  {
    if |s| == 0 then 0 else ParseDigits(s[..|s| - 1]) * 10 + DigitValue(s[|s| - 1])
  }

  function ParseInt(s: string): int
    requires DecimalForm(s)
  {
    if s[0] == '-' then -(ParseDigits(s[1..]) as int) else ParseDigits(s)
  }

  lemma DigitRoundTrip(d: nat)
    requires d < 10
    ensures DigitValue(DigitChar(d)) == d
  {
  }

  lemma {:induction false} NatToDecimalRoundTrip(n: nat)
    ensures ParseDigits(NatToDecimal(n)) == n
  {
    var s := NatToDecimal(n);
    if n < 10 {
      DigitRoundTrip(n);
    } else {
      NatToDecimalRoundTrip(n / 10);
      DigitRoundTrip(n % 10);
      assert s[..|s| - 1] == NatToDecimal(n / 10);
    }
  }

  /** The merchant's user id is the decimal form of the provider's numeric
      user id, from which that number can be read back. */
  lemma {:induction false} IntToDecimalRoundTrip(n: int)
    ensures ParseInt(IntToDecimal(n)) == n
  {
    if n < 0 {
      var d := NatToDecimal(-n);
      NatToDecimalRoundTrip(-n);
      assert IntToDecimal(n) == "-" + d;
      assert ("-" + d)[0] == '-' && ("-" + d)[1..] == d;
    } else {
      NatToDecimalRoundTrip(n);
      assert IntToDecimal(n) == NatToDecimal(n);
      assert NatToDecimal(n)[0] != '-';
    }
  }

  /** The token response fields the exchange keeps. */
  datatype TokenData = TokenData(userId: int, accessToken: string, refreshToken: string, expiresIn: int)

  /** The token endpoint: unreachable, a non-OK response, or the tokens. */
  datatype OAuthReply = OAuthFault(message: string) | OAuthRejected(body: string) | OAuthGranted(data: TokenData)

  datatype Exchanged = Exchanged(store: Store, outcome: Outcome<TokenData>)

  const MissingConfig := "Missing MP config"
  const ExchangeFailed := "Failed to exchange code"

  /** `exchangeCode`, from the token response on: the merchant saved for the
      handle carries `String(user_id)` and the granted tokens. */
  function ExchangeCode(s: Store, config: MpConfig, handle: string, reply: OAuthReply, now: int): (r: Exchanged)
    ensures config.clientSecret == "" || config.redirectUri == "" || config.appId == "" ==>
              r == Exchanged(s, Fault(MissingConfig))
    ensures r.outcome.Fault? ==> r.store == s
    ensures reply.OAuthRejected? ==> r.outcome.Fault? && r.outcome.message in {MissingConfig, ExchangeFailed}
    ensures r.outcome.Ok? <==> reply.OAuthGranted? && config.clientSecret != "" && config.redirectUri != "" && config.appId != ""
    ensures r.outcome.Ok? ==>
              && r.outcome.value == reply.data
              && var m := GetMerchant(r.store, handle);
              && m.Some?
              && m.value.mpUserId == IntToDecimal(reply.data.userId)
              && ParseInt(m.value.mpUserId) == reply.data.userId
              && m.value.accessToken == reply.data.accessToken
              && m.value.refreshToken == reply.data.refreshToken
              && m.value.expiresIn == reply.data.expiresIn
    ensures r.outcome.Ok? ==>
              r.store == SaveMerchant(s, handle, IntToDecimal(reply.data.userId), reply.data.accessToken,
                                      reply.data.refreshToken, reply.data.expiresIn, now)
  {
    if config.clientSecret == "" || config.redirectUri == "" || config.appId == "" then Exchanged(s, Fault(MissingConfig))
    else
      match reply
      case OAuthFault(msg) => Exchanged(s, Fault(msg))
      case OAuthRejected(_) => Exchanged(s, Fault(ExchangeFailed))
      case OAuthGranted(d) =>
        var userId := IntToDecimal(d.userId);
        var t := SaveMerchant(s, handle, userId, d.accessToken, d.refreshToken, d.expiresIn, now);
        SaveThenGet(s, handle, userId, d.accessToken, d.refreshToken, d.expiresIn, now, handle + "#");
        IntToDecimalRoundTrip(d.userId);
        Exchanged(t, Ok(d))
  }

  // ---------------------------------------------------------------------------
  // Payment preferences

  datatype PreferenceItem = PreferenceItem(
    id: string, title: string, unitPrice: int, quantity: nat, pictureUrl: string, currencyId: string)

  datatype BackUrls = BackUrls(success: string, failure: string, pending: string)

  datatype PreferenceBody = PreferenceBody(
    items: seq<PreferenceItem>, backUrls: BackUrls, autoReturn: string, marketplaceFee: int)

  /** A preference request as sent: the access token it is made with, and its body. */
  datatype PreferenceRequest = PreferenceRequest(accessToken: string, body: PreferenceBody)

  /** The provider's answer: an error, or the created preference's checkout
      URL (`init_point`, possibly absent). */
  datatype ProviderReply = ProviderError(description: string) | ProviderCreated(initPoint: Option<string>)

  /** One `createPreference` call: the request it sent (none when it stopped
      first) and what it returned or threw. */
  datatype PreferenceCall = PreferenceCall(sent: Option<PreferenceRequest>, result: Outcome<Option<string>>)

  const DefaultCurrency := "ARS"
  const MarketplaceFee := 0
  const PlaceholderUrl := "https://www.google.com"
  const ApiErrorPrefix := "MP API Error: "

  /** `createPreference`: no merchant for the handle answers null without a
      request; otherwise a one-item preference is created with the merchant's
      own token, and a provider error is rethrown with a prefix. */
  function CreatePreference(s: Store, handle: string, title: string, price: int, imageUrl: string,
                            currency: Option<string>, reply: ProviderReply): (r: PreferenceCall)
    ensures r.sent.None? <==> GetMerchant(s, handle).None?
    ensures r.sent.None? ==> r.result == Ok(None)
    ensures r.sent.Some? ==>
              && r.sent.value.accessToken == GetMerchant(s, handle).value.accessToken
              && |r.sent.value.body.items| == 1
              && r.sent.value.body.items[0].quantity == 1
              && r.sent.value.body.items[0].title == title
              && r.sent.value.body.items[0].unitPrice == price
              && r.sent.value.body.items[0].pictureUrl == imageUrl
              && r.sent.value.body.items[0].currencyId == OrElse(currency, DefaultCurrency)
              && r.sent.value.body.marketplaceFee == 0
    ensures r.sent.Some? && reply.ProviderError? ==> r.result == Fault(ApiErrorPrefix + reply.description)
    ensures r.sent.Some? && reply.ProviderCreated? ==> r.result == Ok(reply.initPoint)
  {
    match GetMerchant(s, handle)
    case None => PreferenceCall(None, Ok(None))
    case Some(m) =>
      var item := PreferenceItem("product-1", title, price, 1, imageUrl, OrElse(currency, DefaultCurrency));
      var body := PreferenceBody([item], BackUrls(PlaceholderUrl, PlaceholderUrl, PlaceholderUrl), "approved", MarketplaceFee);
      var sent := Some(PreferenceRequest(m.accessToken, body));
      match reply
      case ProviderError(e) => PreferenceCall(sent, Fault(ApiErrorPrefix + e))
      case ProviderCreated(url) => PreferenceCall(sent, Ok(url))
  }

  // ---------------------------------------------------------------------------
  // Regenerating a product's link

  const ProductNotFound := "Product not found"
  const RequestNotFound := "Request not found"
  const MissingPriceOrName := "Product missing price or name"
  const LinkNotGenerated := "Failed to generate link (maybe merchant not connected?)"

  /** One regeneration: the store after it, the preference call it made (if
      it got that far), and the link it returned or the error it threw. */
  datatype Regenerated = Regenerated(store: Store, call: Option<PreferenceCall>, outcome: Outcome<string>)

  /** A product price is usable when present and non-zero (JavaScript truthiness). */
  predicate PriceTruthy(p: Option<int>)
  {
    p.Some? && p.value != 0
  }

  /** `regenerateLinkForProduct`: check product, request, price and name in
      that order; ask for a preference under the request's handle with the
      processed image (or the original) and the product's currency; store and
      return a non-empty link, or throw. */
  function RegenerateLinkForProduct(s: Store, productId: ProductId, reply: ProviderReply): (r: Regenerated)
    ensures r.outcome.Fault? ==> r.store == s
    ensures Products.GetProduct(s, productId).None? ==> r == Regenerated(s, None, Fault(ProductNotFound))
    ensures r.call.Some? ==>
              var p := Products.GetProduct(s, productId).value;
              && Products.GetProduct(s, productId).Some?
              && p.requestId in s.requests
              && PriceTruthy(p.price) && Truthy(p.productName)
              && r.call.value == CreatePreference(s, s.requests[p.requestId].handle, p.productName.value,
                                                  p.price.value, OrElse(p.processedImageUrl, p.originalImageUrl),
                                                  DropEmpty(p.currency), reply)
    ensures r.outcome.Ok? ==>
              && r.call.Some? && r.call.value.result == Ok(Some(r.outcome.value)) && r.outcome.value != ""
              && Products.GetProduct(r.store, productId) ==
                 Some(Products.GetProduct(s, productId).value.(mercadoPagoLink := Some(r.outcome.value)))
    ensures r.outcome.Ok? ==> r.store == Products.UpdateProductLink(s, productId, r.outcome.value)
    ensures r.call.Some? && r.call.value.result.Ok? && !Truthy(r.call.value.result.value) ==>
              r.outcome == Fault(LinkNotGenerated)
    ensures r.call.Some? && r.call.value.result.Fault? ==> r.outcome == Fault(r.call.value.result.message)
    ensures var p := Products.GetProduct(s, productId);
            p.Some? && p.value.requestId in s.requests && PriceTruthy(p.value.price) && Truthy(p.value.productName) ==>
              && r.call.Some?
              && (r.call.value.result.Ok? && Truthy(r.call.value.result.value) ==>
                    r.outcome == Ok(r.call.value.result.value.value))
  {
    match Products.GetProduct(s, productId)
    case None => Regenerated(s, None, Fault(ProductNotFound))
    case Some(p) =>
      if p.requestId !in s.requests then Regenerated(s, None, Fault(RequestNotFound))
      else if !PriceTruthy(p.price) || !Truthy(p.productName) then Regenerated(s, None, Fault(MissingPriceOrName))
      else
        var call := CreatePreference(s, s.requests[p.requestId].handle, p.productName.value, p.price.value,
                                     OrElse(p.processedImageUrl, p.originalImageUrl), DropEmpty(p.currency), reply);
        match call.result
        case Fault(e) => Regenerated(s, Some(call), Fault(e))
        case Ok(link) =>
          if !Truthy(link) then Regenerated(s, Some(call), Fault(LinkNotGenerated))
          else Regenerated(Products.UpdateProductLink(s, productId, link.value), Some(call), Ok(link.value))
  }

  /** The checks fail in source order: a missing product before a missing
      request, and both before a missing price or name; none of them reaches
      the provider. */
  lemma RegenerateCheckOrder(s: Store, productId: ProductId, reply: ProviderReply)
    ensures var r := RegenerateLinkForProduct(s, productId, reply);
            && (Products.GetProduct(s, productId).None? ==> r.outcome == Fault(ProductNotFound))
            && (Products.GetProduct(s, productId).Some? &&
                Products.GetProduct(s, productId).value.requestId !in s.requests ==>
                  r.outcome == Fault(RequestNotFound) && r.call.None?)
            && (Products.GetProduct(s, productId).Some? &&
                Products.GetProduct(s, productId).value.requestId in s.requests &&
                (!PriceTruthy(Products.GetProduct(s, productId).value.price) ||
                 !Truthy(Products.GetProduct(s, productId).value.productName)) ==>
                  r.outcome == Fault(MissingPriceOrName) && r.call.None?)
  {
  }

  /** A seller without a merchant record never gets a regenerated link: the
      call answers null, the regeneration throws, and nothing is stored. */
  lemma RegenerateWithoutMerchant(s: Store, productId: ProductId, reply: ProviderReply)
    requires Products.GetProduct(s, productId).Some?
    requires Products.GetProduct(s, productId).value.requestId in s.requests
    requires GetMerchant(s, s.requests[Products.GetProduct(s, productId).value.requestId].handle).None?
    ensures RegenerateLinkForProduct(s, productId, reply).store == s
    ensures RegenerateLinkForProduct(s, productId, reply).outcome.Fault?
  {
  }
}

=== FILE: merchants.dfy ===
/** Merchants: the seller's payment-provider credential, looked up through
    the `by_handle` index (first match in creation order) and upserted by
    handle. */
module Merchants {
  import opened Values
  import opened Schema

  /** Position of the first merchant whose handle is `h`. */
  function FirstWithHandle(ms: seq<Merchant>, h: string): (r: Option<nat>)
    ensures r.Some? ==> r.value < |ms| && ms[r.value].handle == h
    ensures r.Some? ==> forall j :: 0 <= j < r.value ==> ms[j].handle != h
    ensures r.None? <==> forall j :: 0 <= j < |ms| ==> ms[j].handle != h
  {
    if |ms| == 0 then None
    else if ms[0].handle == h then Some(0)
    else match FirstWithHandle(ms[1..], h)
      case None => None
      case Some(i) => Some(i + 1)
  }

  /** Two tables whose handles agree position by position have the same first
      match for every handle. */
  lemma {:induction false} FirstWithHandleByHandles(ms: seq<Merchant>, ns: seq<Merchant>, h: string)
    requires |ms| == |ns|
    requires forall j :: 0 <= j < |ms| ==> ms[j].handle == ns[j].handle
    ensures FirstWithHandle(ms, h) == FirstWithHandle(ns, h)
  {
    if |ms| > 0 && ms[0].handle != h {
      FirstWithHandleByHandles(ms[1..], ns[1..], h);
    }
  }

  /** `getMerchant`: the first merchant with handle `h`, or null. */
  function GetMerchant(s: Store, h: string): (r: Option<Merchant>)
    ensures r.Some? <==> exists i :: 0 <= i < |s.merchants| && s.merchants[i].handle == h
    ensures r.Some? ==> r.value in s.merchants && r.value.handle == h
    ensures r.Some? ==> exists i :: 0 <= i < |s.merchants| && s.merchants[i] == r.value &&
                          forall j :: 0 <= j < i ==> s.merchants[j].handle != h
  {
    match FirstWithHandle(s.merchants, h)
    case None => None
    case Some(i) => Some(s.merchants[i])
  }

  /** `getDefaultMerchant`: the first merchant of the table, or null when the
      table is empty. */
  function GetDefaultMerchant(s: Store): (r: Option<Merchant>)
    ensures r.None? <==> |s.merchants| == 0
    ensures r.Some? ==> r.value == s.merchants[0]
    ensures Valid(s) && r.Some? ==> forall m | m in s.merchants :: r.value.id.n <= m.id.n
  {
    if |s.merchants| == 0 then None else Some(s.merchants[0])
  }

  /** The merchant that the update branch of `saveMerchant` writes. */
  function Refreshed(m: Merchant, mpUserId: string, accessToken: string, refreshToken: string,
                     expiresIn: int, now: int): Merchant
  {
    m.(mpUserId := mpUserId, accessToken := accessToken, refreshToken := refreshToken,
       expiresIn := expiresIn, updatedAt := now)
  }

  /** `saveMerchant`: patch the credential fields of the first merchant with
      this handle, or insert a new merchant when there is none. */
  function SaveMerchant(s: Store, h: string, mpUserId: string, accessToken: string,
                        refreshToken: string, expiresIn: int, now: int): (t: Store)
    ensures t.requests == s.requests && t.products == s.products
    ensures GetMerchant(s, h).Some? ==> |t.merchants| == |s.merchants| && t.nextId == s.nextId
    ensures GetMerchant(s, h).Some? ==>
              var i := FirstWithHandle(s.merchants, h).value;
              && (forall j :: 0 <= j < |s.merchants| && j != i ==> t.merchants[j] == s.merchants[j])
              && t.merchants[i].id == s.merchants[i].id
              && t.merchants[i].handle == h
              && t.merchants[i].mpUserId == mpUserId
              && t.merchants[i].accessToken == accessToken
              && t.merchants[i].refreshToken == refreshToken
              && t.merchants[i].expiresIn == expiresIn
              && t.merchants[i].updatedAt == now
    ensures GetMerchant(s, h).None? ==>
              t.merchants == s.merchants + [Merchant(MerchantId(s.nextId), h, mpUserId, accessToken, refreshToken, expiresIn, now)]
    ensures |t.merchants| <= |s.merchants| + 1
    ensures Valid(s) ==> Valid(t)
  {
    match FirstWithHandle(s.merchants, h)
    case Some(i) =>
      s.(merchants := s.merchants[i := Refreshed(s.merchants[i], mpUserId, accessToken, refreshToken, expiresIn, now)])
    case None =>
      s.(merchants := s.merchants + [Merchant(MerchantId(s.nextId), h, mpUserId, accessToken, refreshToken, expiresIn, now)],
         nextId := s.nextId + 1)
  }

  /** After `saveMerchant(h, …)`, looking `h` up yields the saved credential,
      and every other handle resolves exactly as before. */
  lemma SaveThenGet(s: Store, h: string, mpUserId: string, accessToken: string,
                    refreshToken: string, expiresIn: int, now: int, other: string)
    requires other != h
    ensures var m := GetMerchant(SaveMerchant(s, h, mpUserId, accessToken, refreshToken, expiresIn, now), h);
            && m.Some? && m.value.handle == h
            && m.value.mpUserId == mpUserId && m.value.accessToken == accessToken
            && m.value.refreshToken == refreshToken && m.value.expiresIn == expiresIn
            && m.value.updatedAt == now
    ensures GetMerchant(SaveMerchant(s, h, mpUserId, accessToken, refreshToken, expiresIn, now), other)
            == GetMerchant(s, other)
  {
    var t := SaveMerchant(s, h, mpUserId, accessToken, refreshToken, expiresIn, now);
    match FirstWithHandle(s.merchants, h)
    case Some(i) =>
      FirstWithHandleByHandles(s.merchants, t.merchants, h);
      FirstWithHandleByHandles(s.merchants, t.merchants, other);
      match FirstWithHandle(s.merchants, other) {
        case None =>
        case Some(k) => assert k != i;
      }
    case None =>
      FirstAppended(s.merchants, t.merchants[|s.merchants|], h);
      FirstAppended(s.merchants, t.merchants[|s.merchants|], other);
      assert t.merchants == s.merchants + [t.merchants[|s.merchants|]];
  }

  /** Appending a merchant never changes an existing first match, and is the
      first match for its handle when there was none. */
  lemma FirstAppended(ms: seq<Merchant>, m: Merchant, h: string)
    ensures FirstWithHandle(ms, h).Some? ==> FirstWithHandle(ms + [m], h) == FirstWithHandle(ms, h)
    ensures FirstWithHandle(ms, h).None? && m.handle == h ==> FirstWithHandle(ms + [m], h) == Some(|ms|)
    ensures FirstWithHandle(ms, h).None? && m.handle != h ==> FirstWithHandle(ms + [m], h).None?
  {
    var ns := ms + [m];
    assert forall j :: 0 <= j < |ms| ==> ns[j] == ms[j];
    assert ns[|ms|] == m;
    if FirstWithHandle(ms, h).None? && m.handle == h {
      assert FirstWithHandle(ns, h).Some?;
    }
  }
}

=== FILE: parse_post.dfy ===
/** The caption extraction stage: an empty caption is answered without asking
    the text model; otherwise the model's answer is cleaned of code fences and
    surrounding white space and parsed, and every error becomes null. */
module ParsePost {
  import opened Values

  /** The `price` field of a parsed answer: JSON `null`, left out, or a number. */
  datatype PriceField = PriceNull | PriceMissing | PriceNumber(value: int)

  /** The parsed answer, unvalidated: a field absent or `null` in the JSON is
      `None` (price keeps the difference, since callers test `=== null`). */
  datatype Extracted = Extracted(productName: Option<string>, price: PriceField, size: Option<string>)

  /** What the text model answers: an error, or its text. */
  datatype ModelReply = ModelFault(message: string) | ModelText(text: string)

  /** One extraction: the prompt sent to the model (none when it was not
      called) and the value returned to the caller. */
  datatype Extraction = Extraction(prompt: Option<string>, result: Option<Extracted>)

  const CaptionOpen := "\n\n      Caption: \""
  const CaptionClose := "\"\n    "

  /** The prompt: the fixed instruction, then the caption in quotes. */
  function Prompt(instruction: string, caption: string): string
  {
    instruction + CaptionOpen + caption + CaptionClose
  }

  /** The prompt starts with the instruction and the caption can be read back
      from between the quotes, so different captions give different prompts. */
  lemma PromptRecoversCaption(instruction: string, caption: string)
    ensures var p := Prompt(instruction, caption);
            && |p| == |instruction| + |CaptionOpen| + |caption| + |CaptionClose|
            && p[..|instruction|] == instruction
            && p[|instruction| + |CaptionOpen| .. |p| - |CaptionClose|] == caption
  {
    var p := Prompt(instruction, caption);
    assert p == instruction + (CaptionOpen + caption + CaptionClose);
    assert p == (instruction + CaptionOpen) + caption + CaptionClose;
  }

  lemma PromptInjective(instruction: string, c1: string, c2: string)
    requires Prompt(instruction, c1) == Prompt(instruction, c2)
    ensures c1 == c2
  {
    PromptRecoversCaption(instruction, c1);
    PromptRecoversCaption(instruction, c2);
  }

  // ---------------------------------------------------------------------------
  // Cleaning the answer

  /** White space and line terminators as JavaScript's `trim` removes them. */
  predicate IsJsSpace(c: char)
  {
    || c == '\t' || c == '\n' || c == '\U{B}' || c == '\U{C}' || c == '\r' || c == ' '
    || c == '\U{A0}' || c == '\U{1680}' || ('\U{2000}' <= c <= '\U{200A}')
    || c == '\U{2028}' || c == '\U{2029}' || c == '\U{202F}' || c == '\U{205F}'
    || c == '\U{3000}' || c == '\U{FEFF}'
  }

  function TrimStart(s: string): (r: string)
    ensures |r| <= |s| && r == s[|s| - |r|..]
    ensures r != [] ==> !IsJsSpace(r[0])
    ensures forall i :: 0 <= i < |s| - |r| ==> IsJsSpace(s[i])
  {
    if |s| > 0 && IsJsSpace(s[0]) then TrimStart(s[1..]) else s
  }

  function TrimEnd(s: string): (r: string)
    ensures |r| <= |s| && r == s[..|r|]
    ensures r != [] ==> !IsJsSpace(r[|r| - 1])
    ensures forall i :: |r| <= i < |s| ==> IsJsSpace(s[i])
  {
    if |s| > 0 && IsJsSpace(s[|s| - 1]) then TrimEnd(s[..|s| - 1]) else s
  }

  /** JavaScript `trim`: the middle of `s` from position `i` on, after exactly
      its leading and trailing white space. */
  function Trim(s: string): (r: string)
    ensures r != [] ==> !IsJsSpace(r[0]) && !IsJsSpace(r[|r| - 1])
    ensures var i := |s| - |TrimStart(s)|;
            && i + |r| <= |s|
            && r == s[i..i + |r|]
            && (forall k :: 0 <= k < i ==> IsJsSpace(s[k]))
            && (forall k :: i + |r| <= k < |s| ==> IsJsSpace(s[k]))
  {
    TrimEnd(TrimStart(s))
  }

  const FenceOpen := "```json\n"
  const FenceClose := "\n```"

  /** `replace(/```json\n|\n```/g, "")`: scanning left to right, drop each
      opening fence, or else each closing fence, and keep every other char. */
  function StripFences(s: string): string
  {
    if |FenceOpen| <= |s| && s[..|FenceOpen|] == FenceOpen then StripFences(s[|FenceOpen|..])
    else if |FenceClose| <= |s| && s[..|FenceClose|] == FenceClose then StripFences(s[|FenceClose|..])
    else if s == [] then []
    else [s[0]] + StripFences(s[1..])
  }

  /** `replace(/```/g, "")`: drop every run of three backticks, left to right. */
  function StripTicks(s: string): string
  {
    if |s| >= 3 && TripleAt(s, 0) then StripTicks(s[3..])
    else if s == [] then []
    else [s[0]] + StripTicks(s[1..])
  }

  /** The cleaned answer handed to the JSON parser. */
  function Clean(text: string): string
  {
    Trim(StripTicks(StripFences(text)))
  }

  predicate TripleAt(s: string, i: int)
    requires 0 <= i && i + 3 <= |s|
  {
    s[i] == '`' && s[i + 1] == '`' && s[i + 2] == '`'
  }

  /** `s` has no substring "```". */
  predicate NoTriple(s: string)
  {
    forall i :: 0 <= i && i + 3 <= |s| ==> !TripleAt(s, i)
  }

  /** The number of backticks `s` starts with. */
  function LeadTicks(s: string): (n: nat)
    ensures n <= |s|
    ensures forall i :: 0 <= i < n ==> s[i] == '`'
    ensures n < |s| ==> s[n] != '`'
  {
    if s != [] && s[0] == '`' then 1 + LeadTicks(s[1..]) else 0
  }

  /** After dropping the triples no "```" is left, and a string starting with
      fewer than three backticks keeps them all at its start. */
  lemma {:induction false} StripTicksShape(s: string)
    ensures NoTriple(StripTicks(s))
    ensures LeadTicks(s) < 3 ==> LeadTicks(StripTicks(s)) == LeadTicks(s)
    decreases |s|
  {
    if |s| >= 3 && TripleAt(s, 0) {
      StripTicksShape(s[3..]);
    } else if s != [] {
      var rest := s[1..];
      StripTicksShape(rest);
      assert |rest| >= 2 ==> s[1] == rest[0] && s[2] == rest[1];
      assert s[0] == '`' ==> LeadTicks(s) == 1 + LeadTicks(rest);
      ConsShape(s[0], StripTicks(rest));
    }
  }

  /** Each fence the first replacement looks for starts with, or contains at
      position one, a run of three backticks. */
  lemma FencesAreTriples(s: string)
    ensures |FenceOpen| <= |s| && s[..|FenceOpen|] == FenceOpen ==> TripleAt(s, 0)
    ensures |FenceClose| <= |s| && s[..|FenceClose|] == FenceClose ==> TripleAt(s, 1)
  {
    if |FenceOpen| <= |s| && s[..|FenceOpen|] == FenceOpen {
      assert s[0] == s[..8][0] && s[1] == s[..8][1] && s[2] == s[..8][2];
    }
    if |FenceClose| <= |s| && s[..|FenceClose|] == FenceClose {
      assert s[1] == s[..4][1] && s[2] == s[..4][2] && s[3] == s[..4][3];
    }
  }

  /** Putting one char in front of a string without "```" keeps it free of
      "```" when the char is not a backtick or the string starts with at most
      one backtick. */
  lemma ConsShape(c: char, tail: string)
    requires NoTriple(tail)
    requires c == '`' ==> LeadTicks(tail) <= 1
    ensures NoTriple([c] + tail)
    ensures LeadTicks([c] + tail) == if c == '`' then 1 + LeadTicks(tail) else 0
  {
    var r := [c] + tail;
    assert r[1..] == tail;
    forall i | 0 <= i && i + 3 <= |r|
      ensures !TripleAt(r, i)
    {
      if i == 0 {
        if c == '`' && |tail| >= 2 && tail[0] == '`' {
          assert tail[1] != '`';
        }
      } else {
        assert TripleAt(r, i) == TripleAt(tail, i - 1);
      }
    }
  }

  lemma NoTripleSuffix(s: string, k: nat)
    requires NoTriple(s) && k <= |s|
    ensures NoTriple(s[k..])
  {
    forall i | 0 <= i && i + 3 <= |s[k..]|
      ensures !TripleAt(s[k..], i)
    {
      assert TripleAt(s[k..], i) == TripleAt(s, k + i);
    }
  }

  lemma NoTriplePrefix(s: string, k: nat)
    requires NoTriple(s) && k <= |s|
    ensures NoTriple(s[..k])
  {
    forall i | 0 <= i && i + 3 <= |s[..k]|
      ensures !TripleAt(s[..k], i)
    {
      assert TripleAt(s[..k], i) == TripleAt(s, i);
    }
  }

  /** A string without "```" has nothing for either replacement to remove. */
  lemma {:induction false} NoTripleUntouched(s: string)
    requires NoTriple(s)
    ensures StripFences(s) == s
    ensures StripTicks(s) == s
    decreases |s|
  {
    if s != [] {
      FencesAreTriples(s);
      NoTripleSuffix(s, 1);
      NoTripleUntouched(s[1..]);
      assert StripFences(s) == [s[0]] + StripFences(s[1..]);
      assert StripTicks(s) == [s[0]] + StripTicks(s[1..]);
    }
  }

  /** The cleaned answer contains no "```" and has no white space at either
      end. */
  lemma CleanShape(text: string)
    ensures NoTriple(Clean(text))
    ensures Clean(text) != [] ==> !IsJsSpace(Clean(text)[0]) && !IsJsSpace(Clean(text)[|Clean(text)| - 1])
  {
    var u := StripTicks(StripFences(text));
    StripTicksShape(StripFences(text));
    var a := TrimStart(u);
    NoTripleSuffix(u, |u| - |a|);
    NoTriplePrefix(a, |TrimEnd(a)|);
  }

  /** Cleaning is idempotent: a cleaned answer is its own cleaning. */
  lemma CleanIdempotent(text: string)
    ensures Clean(Clean(text)) == Clean(text)
  {
    var c := Clean(text);
    CleanShape(text);
    NoTripleUntouched(c);
    assert TrimStart(c) == c;
    assert TrimEnd(c) == c;
  }

  /** An answer without backticks is only trimmed. */
  lemma CleanPlain(text: string)
    requires forall i :: 0 <= i < |text| ==> text[i] != '`'
    ensures Clean(text) == Trim(text)
  {
    assert NoTriple(text) by {
      forall i | 0 <= i && i + 3 <= |text|
        ensures !TripleAt(text, i)
      {
      }
    }
    NoTripleUntouched(text);
  }

  // ---------------------------------------------------------------------------
  // The stage

  /** `extractProductDataFromCaption`: `ask` is the text model and `parse` is
      `JSON.parse` (none when it throws or yields null).  The answer is not
      validated, so a `null` price reaches the caller. */
  function ExtractProductData(instruction: string, caption: string,
                              ask: string -> ModelReply, parse: string -> Option<Extracted>): (r: Extraction)
    ensures r.prompt.None? <==> caption == ""
    ensures caption == "" ==> r.result.None?
    ensures r.prompt.Some? ==> r.prompt.value == Prompt(instruction, caption)
    ensures caption != "" && ask(Prompt(instruction, caption)).ModelFault? ==> r.result.None?
    ensures caption != "" && ask(Prompt(instruction, caption)).ModelText? ==>
              r.result == parse(Clean(ask(Prompt(instruction, caption)).text))
  {
    if caption == "" then Extraction(None, None)
    else
      var prompt := Prompt(instruction, caption);
      match ask(prompt)
      case ModelFault(_) => Extraction(Some(prompt), None)
      case ModelText(text) => Extraction(Some(prompt), parse(Clean(text)))
  }
}

=== FILE: process_image.dfy ===
/** The image stage: fetch the post's image, ask the image model for a
    version on a white background, upload whichever image results to blob
    storage and answer its public URL.  Every failure answers the input URL;
    the stage never throws. */
module ProcessImage {
  import opened Values

  const DefaultContentType := "image/jpeg"
  const DefaultGeneratedType := "image/png"

  /** An image ready for upload: its bytes and its MIME type. */
  datatype Blob = Blob(bytes: seq<bv8>, mimeType: string)

  /** Fetching the source image: a failure, or its bytes and `content-type`
      header.  The HTTP status is not inspected. */
  datatype FetchReply = FetchFault(message: string) | Fetched(bytes: seq<bv8>, contentType: Option<string>)

  /** Inline image data in a model answer (already decoded from base64). */
  datatype InlineData = InlineData(data: seq<bv8>, mimeType: Option<string>)
  datatype Part = Part(inlineData: Option<InlineData>)

  /** One candidate of the answer; `parts` is absent when the candidate has no
      content or its content has no parts. */
  datatype Candidate = Candidate(parts: Option<seq<Part>>)

  /** What the image model answers: an error, or its candidates (if any). */
  datatype GenReply = GenFault(message: string) | GenResponse(candidates: Option<seq<Candidate>>)

  /** The upload POST: a failure, or a response whose body parses to a
      storage id (or does not). */
  datatype UploadReply = UploadFault(message: string) | UploadResponse(ok: bool, statusText: string, storageId: Outcome<string>)

  /** The collaborators' answers for one run of the stage. */
  datatype ImageOracle = ImageOracle(
    fetch: FetchReply,
    generate: GenReply,
    uploadUrl: Outcome<string>,
    upload: UploadReply,
    publicUrl: Outcome<Option<string>>)

  /** One run: the blob handed to the upload (none when the run stopped
      before it) and the URL the stage answers. */
  datatype ImageRun = ImageRun(uploaded: Option<Blob>, url: Option<string>)

  /** The first part that carries inline data. */
  function FirstInline(parts: seq<Part>): (r: Option<InlineData>)
    ensures r.None? <==> forall i :: 0 <= i < |parts| ==> parts[i].inlineData.None?
    ensures r.Some? ==> exists i :: 0 <= i < |parts| && parts[i].inlineData == r
                           && forall j :: 0 <= j < i ==> parts[j].inlineData.None?
  {
    if |parts| == 0 then None
    else if parts[0].inlineData.Some? then parts[0].inlineData
    else
      var r := FirstInline(parts[1..]);
      assert r.Some? ==> exists i :: 0 <= i < |parts| - 1 && parts[1..][i].inlineData == r
                           && forall j :: 0 <= j < i ==> parts[1..][j].inlineData.None?;
      r
  }

  /** The image the model generated: the first inline part of the first
      candidate, typed `image/png` unless it names its type. */
  function Generated(reply: GenReply): (r: Option<Blob>)
    ensures reply.GenFault? ==> r.None?
    ensures r.Some? ==> exists d :: Inline(reply) == Some(d) && r.value.bytes == d.data
                          && r.value.mimeType == OrElse(d.mimeType, DefaultGeneratedType)
    ensures r.None? ==> Inline(reply).None?
  {
    match Inline(reply)
    case None => None
    case Some(d) => Some(Blob(d.data, OrElse(d.mimeType, DefaultGeneratedType)))
  }

  /** The inline data the answer offers, if the answer has the expected shape. */
  function Inline(reply: GenReply): Option<InlineData>
  {
    match reply
    case GenFault(_) => None
    case GenResponse(cs) =>
      if cs.Some? && |cs.value| > 0 && cs.value[0].parts.Some? then FirstInline(cs.value[0].parts.value)
      else None
  }

  /** The blob to upload: the generated image when there is one, else the
      fetched bytes under the fetched (or default) content type. */
  function ImageToUpload(bytes: seq<bv8>, contentType: Option<string>, reply: GenReply): (b: Blob)
    ensures Inline(reply).Some? ==>
              b.bytes == Inline(reply).value.data && b.mimeType == OrElse(Inline(reply).value.mimeType, DefaultGeneratedType)
    ensures Inline(reply).None? ==> b == Blob(bytes, OrElse(contentType, DefaultContentType))
    ensures b.mimeType != ""
  {
    match Generated(reply)
    case Some(g) => g
    case None => Blob(bytes, OrElse(contentType, DefaultContentType))
  }

  /** `processAndUploadProductImage` (the product name it takes is only
      logged, so it is not a parameter here). */
  function ProcessAndUpload(imageUrl: string, o: ImageOracle): (r: ImageRun)
    ensures r.uploaded.Some? <==> o.fetch.Fetched? && o.uploadUrl.Ok?
    ensures r.uploaded.Some? ==> r.uploaded.value == ImageToUpload(o.fetch.bytes, o.fetch.contentType, o.generate)
    ensures Succeeds(o) ==> r.url == o.publicUrl.value
    ensures !Succeeds(o) ==> r.url == Some(imageUrl)
  {
    match o.fetch
    case FetchFault(_) => ImageRun(None, Some(imageUrl))
    case Fetched(bytes, contentType) =>
      var blob := ImageToUpload(bytes, contentType, o.generate);
      if o.uploadUrl.Fault? then ImageRun(None, Some(imageUrl))
      else Upload(imageUrl, blob, o)
  }

  /** Everything after the blob is chosen: a non-OK response throws, and
      every throw answers the input URL. */
  function Upload(imageUrl: string, blob: Blob, o: ImageOracle): ImageRun
  {
    match o.upload
    case UploadFault(_) => ImageRun(Some(blob), Some(imageUrl))
    case UploadResponse(ok, _, storageId) =>
      if !ok || storageId.Fault? || o.publicUrl.Fault? then ImageRun(Some(blob), Some(imageUrl))
      else ImageRun(Some(blob), o.publicUrl.value)
  }

  /** The run reaches the public URL: every step after the model succeeded. */
  predicate Succeeds(o: ImageOracle)
  {
    && o.fetch.Fetched?
    && o.uploadUrl.Ok?
    && o.upload.UploadResponse? && o.upload.ok && o.upload.storageId.Ok?
    && o.publicUrl.Ok?
  }

  /** The model's answer only chooses the uploaded image; whether the stage
      falls back, and to what, never depends on it. */
  lemma GeneratorNeverDecidesUrl(imageUrl: string, o: ImageOracle, g: GenReply)
    ensures ProcessAndUpload(imageUrl, o).url == ProcessAndUpload(imageUrl, o.(generate := g)).url
  {
  }
}

=== FILE: process_image_early.dfy ===
/** The earlier image stage: the model is called, but the uploaded image is
    always the fetched original. */
module ProcessImageEarly {
  import opened Values
  import opened ProcessImage

  /** The earlier `processAndUploadProductImage`. */
  function ProcessAndUpload(imageUrl: string, o: ImageOracle): (r: ImageRun)
    ensures r.uploaded.Some? <==> o.fetch.Fetched? && o.uploadUrl.Ok?
    ensures r.uploaded.Some? ==> r.uploaded.value == Blob(o.fetch.bytes, OrElse(o.fetch.contentType, DefaultContentType))
    ensures Succeeds(o) ==> r.url == o.publicUrl.value
    ensures !Succeeds(o) ==> r.url == Some(imageUrl)
  {
    match o.fetch
    case FetchFault(_) => ImageRun(None, Some(imageUrl))
    case Fetched(bytes, contentType) =>
      // The model may answer or throw; either way the original is kept.
      var blob := Blob(bytes, OrElse(contentType, DefaultContentType));
      if o.uploadUrl.Fault? then ImageRun(None, Some(imageUrl))
      else Upload(imageUrl, blob, o)
  }

  /** The earlier stage ignores the model entirely, and it agrees with the
      later stage whenever the model offers no image. */
  lemma AgreesWithoutGeneratedImage(imageUrl: string, o: ImageOracle, g: GenReply)
    ensures ProcessAndUpload(imageUrl, o) == ProcessAndUpload(imageUrl, o.(generate := g))
    ensures Inline(o.generate).None? ==> ProcessAndUpload(imageUrl, o) == ProcessImage.ProcessAndUpload(imageUrl, o)
  {
  }
}

=== FILE: products.dfy ===
/** Products: the public listing query and the per-product store operations
    the ingestion run and the link regeneration call. */
module Products {
  import opened Values
  import opened Schema

  /** The listing query's page size. */
  const PageSize := 20

  /** At most `n` products of `ps`, from the last one backwards. */
  function Newest(ps: seq<Product>, n: nat): (r: seq<Product>)
    ensures |r| == if |ps| < n then |ps| else n
    ensures forall i :: 0 <= i < |r| ==> r[i] == ps[|ps| - 1 - i]
  {
    if n == 0 || |ps| == 0 then []
    else [ps[|ps| - 1]] + Newest(ps[..|ps| - 1], n - 1)
  }

  /** `getProducts`: the newest products of the whole table, newest first, at
      most twenty, with no filter by handle or request. */
  function GetProducts(s: Store): (r: seq<Product>)
    ensures |r| <= PageSize && |r| <= |s.products|
    ensures |r| == PageSize || |r| == |s.products|
    ensures forall i :: 0 <= i < |r| ==> r[i] == s.products[|s.products| - 1 - i]
    ensures Valid(s) ==> forall i, j :: 0 <= i < j < |r| ==> r[i].id.n > r[j].id.n
  {
    Newest(s.products, PageSize)
  }

  /** Position of the product with id `id` (ids are unique in a valid store). */
  function IndexOfProduct(ps: seq<Product>, id: ProductId): (r: Option<nat>)
    ensures r.Some? ==> r.value < |ps| && ps[r.value].id == id
    ensures r.None? <==> forall j :: 0 <= j < |ps| ==> ps[j].id != id
  {
    if |ps| == 0 then None
    else if ps[0].id == id then Some(0)
    else match IndexOfProduct(ps[1..], id)
      case None => None
      case Some(i) => Some(i + 1)
  }

  /** `getProduct` (called by the link regeneration, not defined in this file):
      the product with this id, or null. */
  function GetProduct(s: Store, id: ProductId): (r: Option<Product>)
    ensures r.Some? <==> exists j :: 0 <= j < |s.products| && s.products[j].id == id
    ensures r.Some? ==> r.value in s.products && r.value.id == id
  {
    match IndexOfProduct(s.products, id)
    case None => None
    case Some(i) => Some(s.products[i])
  }

  /** `b` is `a` with at most its processed image URL and payment link changed. */
  ghost predicate SameListing(a: Product, b: Product)
  {
    b == a.(processedImageUrl := b.processedImageUrl, mercadoPagoLink := b.mercadoPagoLink)
  }

  /** `updateProduct` (called by the ingestion run, not defined in this file):
      set the processed image URL and the payment link of one product; an
      absent link clears the field. */
  function UpdateProduct(s: Store, id: ProductId, processedImageUrl: string, link: Option<string>): (t: Store)
    ensures t.requests == s.requests && t.merchants == s.merchants && t.nextId == s.nextId
    ensures |t.products| == |s.products|
    ensures forall j :: 0 <= j < |s.products| ==> SameListing(s.products[j], t.products[j])
    ensures forall j :: 0 <= j < |s.products| && s.products[j].id != id ==> t.products[j] == s.products[j]
    ensures forall j :: 0 <= j < |s.products| && s.products[j].id == id && j == IndexOfProduct(s.products, id).value ==>
              t.products[j].processedImageUrl == Some(processedImageUrl) && t.products[j].mercadoPagoLink == link
    ensures Valid(s) ==> Valid(t)
  {
    match IndexOfProduct(s.products, id)
    case None => s
    case Some(i) =>
      var t := s.(products := s.products[i := s.products[i].(processedImageUrl := Some(processedImageUrl), mercadoPagoLink := link)]);
      SameIdsKeepValid(s, t);
      t
  }

  /** `updateProductLink` (called by the link regeneration, not defined in this
      file): set only the payment link of one product. */
  function UpdateProductLink(s: Store, id: ProductId, link: string): (t: Store)
    ensures t.requests == s.requests && t.merchants == s.merchants && t.nextId == s.nextId
    ensures |t.products| == |s.products|
    ensures forall j :: 0 <= j < |s.products| && s.products[j].id != id ==> t.products[j] == s.products[j]
    ensures forall j :: 0 <= j < |s.products| && s.products[j].id == id && j == IndexOfProduct(s.products, id).value ==>
              t.products[j] == s.products[j].(mercadoPagoLink := Some(link))
    ensures GetProduct(s, id).Some? ==> GetProduct(t, id) == Some(GetProduct(s, id).value.(mercadoPagoLink := Some(link)))
    ensures Valid(s) ==> Valid(t)
  {
    match IndexOfProduct(s.products, id)
    case None => s
    case Some(i) =>
      var t := s.(products := s.products[i := s.products[i].(mercadoPagoLink := Some(link))]);
      IndexSameIds(s.products, t.products, id);
      SameIdsKeepValid(s, t);
      assert GetProduct(s, id) == Some(s.products[i]);
      assert GetProduct(t, id) == Some(t.products[i]);
      t
  }

  /** A store whose products keep their ids, position by position, stays
      valid. */
  lemma SameIdsKeepValid(s: Store, t: Store)
    requires t.requests == s.requests && t.merchants == s.merchants && t.nextId == s.nextId
    requires |t.products| == |s.products|
    requires forall j :: 0 <= j < |s.products| ==> t.products[j].id == s.products[j].id
    ensures Valid(s) ==> Valid(t)
  {
  }

  /** Tables with the same ids position by position locate an id at the same
      position. */
  lemma {:induction false} IndexSameIds(ps: seq<Product>, qs: seq<Product>, id: ProductId)
    requires |ps| == |qs|
    requires forall j :: 0 <= j < |ps| ==> ps[j].id == qs[j].id
    ensures IndexOfProduct(ps, id) == IndexOfProduct(qs, id)
  {
    if |ps| > 0 && ps[0].id != id {
      IndexSameIds(ps[1..], qs[1..], id);
    }
  }
}

=== FILE: requests.dfy ===
/** Catalog requests: creation, lookup, the bulk product insert that also
    completes the request, and the status write the ingestion runs use. */
module Requests {
  import opened Values
  import opened Schema

  /** One element of the `products` argument of `addProducts`, as a caller
      builds it; a field the caller leaves undefined is `None`. */
  datatype ProductArg = ProductArg(
    productName: Option<string>,
    price: Option<int>,
    currency: Option<string>,
    size: Option<string>,
    originalImageUrl: string,
    processedImageUrl: Option<string>,
    igPostUrl: string,
    mercadoPagoLink: Option<string>)

  datatype Created = Created(store: Store, id: RequestId)

  /** The result of a mutation: the store after it (the store before it when
      it threw, since a failed mutation commits nothing) and its outcome. */
  datatype Committed = Committed(store: Store, outcome: Outcome<()>)

  const ValidationError := "ArgumentValidationError: products element does not match its validator"
  const NonexistentDocument := "Update on nonexistent document ID"

  /** `create`: one new request for `handle`, pending, stamped `now`. */
  function Create(s: Store, handle: string, now: int): (r: Created)
    ensures Valid(s) ==> r.id !in s.requests && Valid(r.store)
    ensures r.store.requests == s.requests[r.id := CatalogRequest(handle, Pending, now)]
    ensures r.store.products == s.products && r.store.merchants == s.merchants
  {
    var id := RequestId(s.nextId);
    Created(s.(requests := s.requests[id := CatalogRequest(handle, Pending, now)], nextId := s.nextId + 1), id)
  }

  /** `getRequest`: the record for `id`, or null. */
  function GetRequest(s: Store, id: RequestId): (r: Option<CatalogRequest>)
    ensures r.Some? <==> id in s.requests
    ensures r.Some? ==> r.value == s.requests[id]
  {
    if id in s.requests then Some(s.requests[id]) else None
  }

  /** The argument validator of `addProducts`: name, price, currency and the
      processed image URL are required strings/numbers; size and link are
      optional. */
  predicate Admits(p: ProductArg)
  {
    p.productName.Some? && p.price.Some? && p.currency.Some? && p.processedImageUrl.Some?
  }

  /** The document `addProducts` inserts for `p`: it drops `currency`, never
      sets `handle` or a preference id, and stores an empty size as absent. */
  function Stored(rid: RequestId, p: ProductArg, id: ProductId): Product
  {
    Product(id, rid, p.originalImageUrl, p.processedImageUrl, p.productName, p.price,
            None, DropEmpty(p.size), p.igPostUrl, p.mercadoPagoLink, None, None)
  }

  /** Field by field, what `Stored` promises about the inserted document. */
  ghost predicate StoredAs(d: Product, rid: RequestId, p: ProductArg)
  {
    && d.requestId == rid
    && d.productName == p.productName
    && d.price == p.price
    && d.originalImageUrl == p.originalImageUrl
    && d.processedImageUrl == p.processedImageUrl
    && d.igPostUrl == p.igPostUrl
    && d.mercadoPagoLink == p.mercadoPagoLink
    && d.currency == None
    && d.handle == None
    && d.mercadoPagoPreferenceId == None
    && (d.size.Some? <==> Truthy(p.size))
    && (d.size.Some? ==> d.size == p.size)
  }

  function InsertOne(s: Store, rid: RequestId, p: ProductArg): Store
  {
    s.(products := s.products + [Stored(rid, p, ProductId(s.nextId))], nextId := s.nextId + 1)
  }

  /** The insert loop of `addProducts`: one document per element, in order. */
  function InsertAll(s: Store, rid: RequestId, ps: seq<ProductArg>): (t: Store)
    ensures t.requests == s.requests && t.merchants == s.merchants
    ensures t.nextId == s.nextId + |ps|
    ensures |t.products| == |s.products| + |ps|
    ensures t.products[..|s.products|] == s.products
    ensures forall k :: 0 <= k < |ps| ==>
              t.products[|s.products| + k] == Stored(rid, ps[k], ProductId(s.nextId + k))
    ensures Valid(s) ==> Valid(t)
    decreases |ps|
  {
    if ps == [] then s
    else
      var s1 := InsertOne(s, rid, ps[0]);
      var t := InsertAll(s1, rid, ps[1..]);
      assert forall k :: 1 <= k < |ps| ==> ps[1..][k - 1] == ps[k];
      t
  }

  /** The handler body of `addProducts`: insert every element, then patch the
      request to `completed` unconditionally.  Patching a missing request throws
      and rolls the inserts back. */
  function AddProductsHandler(s: Store, rid: RequestId, ps: seq<ProductArg>): (r: Committed)
    ensures r.outcome.Ok? <==> rid in s.requests
    ensures r.outcome.Fault? ==> r.store == s
    ensures r.outcome.Ok? ==> r.store.requests == s.requests[rid := s.requests[rid].(status := Completed)]
    ensures r.outcome.Ok? ==> r.store.merchants == s.merchants
    ensures r.outcome.Ok? ==> |r.store.products| == |s.products| + |ps|
    ensures r.outcome.Ok? ==> r.store.products[..|s.products|] == s.products
    ensures r.outcome.Ok? ==> forall k :: 0 <= k < |ps| ==>
              && StoredAs(r.store.products[|s.products| + k], rid, ps[k])
              && r.store.products[|s.products| + k].id == ProductId(s.nextId + k)
    ensures Valid(s) ==> Valid(r.store)
  {
    if rid !in s.requests then Committed(s, Fault(NonexistentDocument))
    else
      var t := InsertAll(s, rid, ps);
      Committed(t.(requests := t.requests[rid := t.requests[rid].(status := Completed)]), Ok(()))
  }

  /** `addProducts`: validate the arguments, then run the handler.  It returns
      nothing; its only results are the inserted documents and the status. */
  function AddProducts(s: Store, rid: RequestId, ps: seq<ProductArg>): (r: Committed)
    ensures r.outcome.Ok? <==> (forall p | p in ps :: Admits(p)) && rid in s.requests
    ensures r.outcome.Fault? ==> r.store == s
    ensures r.outcome.Ok? ==> r.store.requests == s.requests[rid := s.requests[rid].(status := Completed)]
    ensures r.outcome.Ok? ==> r.store.merchants == s.merchants
    ensures r.outcome.Ok? ==> |r.store.products| == |s.products| + |ps|
    ensures r.outcome.Ok? ==> r.store.products[..|s.products|] == s.products
    ensures r.outcome.Ok? ==> forall k :: 0 <= k < |ps| ==>
              && StoredAs(r.store.products[|s.products| + k], rid, ps[k])
              && r.store.products[|s.products| + k].id == ProductId(s.nextId + k)
    ensures Valid(s) ==> Valid(r.store)
  {
    if exists p | p in ps :: !Admits(p) then Committed(s, Fault(ValidationError))
    else AddProductsHandler(s, rid, ps)
  }

  /** After a successful `addProducts` the request reads `completed`, even for
      an empty list, whatever its status was before. */
  lemma AddProductsCompletes(s: Store, rid: RequestId, ps: seq<ProductArg>)
    requires rid in s.requests && forall p | p in ps :: Admits(p)
    ensures AddProducts(s, rid, ps).outcome.Ok?
    ensures StatusOf(AddProducts(s, rid, ps).store, rid) == Some(Completed)
    ensures |AddProducts(s, rid, ps).store.products| == |s.products| + |ps|
  {
  }

  /** An element without a processed image URL is refused by the validator, so
      nothing is inserted and the status is unchanged. */
  lemma RejectsMissingProcessedImage(s: Store, rid: RequestId, ps: seq<ProductArg>, k: nat)
    requires k < |ps| && ps[k].processedImageUrl.None?
    ensures AddProducts(s, rid, ps) == Committed(s, Fault(ValidationError))
  {
    assert ps[k] in ps && !Admits(ps[k]);
  }

  /** `updateStatus` (referenced by the ingestion run, not defined in this
      file): set the request's status, leaving everything else alone. */
  function SetStatus(s: Store, rid: RequestId, status: RequestStatus): (t: Store)
    ensures StatusOf(t, rid) == (if rid in s.requests then Some(status) else None)
    ensures t.requests.Keys == s.requests.Keys
    ensures forall q :: q in s.requests && q != rid ==> t.requests[q] == s.requests[q]
    ensures rid in s.requests ==> t.requests[rid].handle == s.requests[rid].handle
    ensures t.products == s.products && t.merchants == s.merchants && t.nextId == s.nextId
    ensures Valid(s) ==> Valid(t)
  {
    if rid in s.requests then s.(requests := s.requests[rid := s.requests[rid].(status := status)]) else s
  }
}

=== FILE: schema.dfy ===
/** The three tables of the backend (`catalog_requests`, `products`,
    `merchants`) and the store that holds them, as immutable values.

    Field optionality follows the table definitions: a request's status is
    one of four literals; a product must have a request id, an original image
    URL and a post URL, and every other product field is optional; every
    merchant field is required.  Documents carry the id the store generated
    for them; table order is creation order, which is what the backend's
    `order("desc")` and `first()` queries walk. */
module Schema {
  import opened Values

  datatype RequestStatus = Pending | Processing | Completed | Failed

  datatype RequestId = RequestId(n: nat)
  datatype ProductId = ProductId(n: nat)
  datatype MerchantId = MerchantId(n: nat)

  datatype CatalogRequest = CatalogRequest(handle: string, status: RequestStatus, requestTime: int)

  datatype Product = Product(
    id: ProductId,
    requestId: RequestId,
    originalImageUrl: string,
    processedImageUrl: Option<string>,
    productName: Option<string>,
    price: Option<int>,
    currency: Option<string>,
    size: Option<string>,
    igPostUrl: string,
    mercadoPagoLink: Option<string>,
    mercadoPagoPreferenceId: Option<string>,
    handle: Option<string>)

  datatype Merchant = Merchant(
    id: MerchantId,
    handle: string,
    mpUserId: string,
    accessToken: string,
    refreshToken: string,
    expiresIn: int,
    updatedAt: int)

  /** The durable store.  `nextId` is the source of fresh document ids, shared
      by all tables. */
  datatype Store = Store(
    requests: map<RequestId, CatalogRequest>,
    products: seq<Product>,
    merchants: seq<Merchant>,
    nextId: nat)

  /** Every id in use was generated before `nextId`, and within each table ids
      grow strictly with creation order. */
  predicate Valid(s: Store)
  {
    && (forall r :: r in s.requests ==> r.n < s.nextId)
    && (forall i :: 0 <= i < |s.products| ==> s.products[i].id.n < s.nextId)
    && (forall i, j :: 0 <= i < j < |s.products| ==> s.products[i].id.n < s.products[j].id.n)
    && (forall i :: 0 <= i < |s.merchants| ==> s.merchants[i].id.n < s.nextId)
    && (forall i, j :: 0 <= i < j < |s.merchants| ==> s.merchants[i].id.n < s.merchants[j].id.n)
  }

  /** The status of a request, when the request exists. */
  function StatusOf(s: Store, id: RequestId): Option<RequestStatus>
  {
    if id in s.requests then Some(s.requests[id].status) else None
  }

  /** Every product of `s` is still in `t`, at the same position, with the same
      id, request and post; only later patches may have changed other fields. */
  ghost predicate ProductsKept(s: Store, t: Store)
  {
    && |s.products| <= |t.products|
    && forall i :: 0 <= i < |s.products| ==>
         && t.products[i].id == s.products[i].id
         && t.products[i].requestId == s.products[i].requestId
         && t.products[i].igPostUrl == s.products[i].igPostUrl
         && t.products[i].originalImageUrl == s.products[i].originalImageUrl
  }
}

=== FILE: values.dfy ===
/** Values shared by every module: optional values (JavaScript `undefined`
    and `null`), the outcome of a call that may throw, and JavaScript's
    truthiness for the string fields the backend tests with `||` and `!`. */
module Values {

  /** An optional value; `None` stands for `undefined` or `null`. */
  datatype Option<+T> = None | Some(value: T)

  /** The outcome of a call that may throw: `Fault` carries the error message. */
  datatype Outcome<+T> = Ok(value: T) | Fault(message: string)

  /** A string-or-undefined is truthy when it is present and non-empty. */
  predicate Truthy(o: Option<string>)
  {
    o.Some? && o.value != ""
  }

  /** JavaScript `o || fallback` for a string-or-undefined. */
  function OrElse(o: Option<string>, fallback: string): (r: string)
    ensures Truthy(o) ==> r == o.value
    ensures !Truthy(o) ==> r == fallback
    ensures fallback != "" ==> r != ""
  {
    if Truthy(o) then o.value else fallback
  }

  /** JavaScript `o || undefined`: an empty string becomes absent. */
  function DropEmpty(o: Option<string>): (r: Option<string>)
    ensures r.Some? <==> Truthy(o)
    ensures r.Some? ==> r == o
  {
    if Truthy(o) then o else None
  }
}

=== FILE: workflow.dfy ===
/** The per-request ingestion run (`ingestInstagramPosts`): look the request
    up, mark it `processing`, take each post in order through extraction, a
    draft write, the image stage, the payment-link stage and a patch, catching
    every fault at the post boundary, then mark the request `completed` (or
    `failed`, rethrowing, when that write throws).

    The collaborators are oracle inputs: per post, the extraction stage's
    answer, how the draft write comes back, the image stage's collaborators,
    the payment provider's answer and whether the patch throws; per run,
    whether each status write throws.  There is no deduplication and no
    batching: posts run strictly one after another. */
module Workflow {
  import opened Values
  import opened Schema
  import opened Requests
  import opened ParsePost
  import ProcessImage
  import MercadoPago
  import Products
  import Merchants

  /** The fields of a scraped post the run reads. */
  datatype RawPost = RawPost(id: string, url: string, caption: Option<string>, displayUrl: string)

  /** How the draft write comes back to the run: it throws (nothing is
      committed), it returns nothing (as `addProducts` is written, so reading
      `productIds[0]` throws after the draft is committed), or it returns the
      new product's id (as the run expects). */
  datatype DraftReply = DraftThrows(message: string) | DraftReturnsNothing | DraftReturnsIds

  /** The collaborators' answers for one post. */
  datatype PostOracle = PostOracle(
    extract: string -> Outcome<Option<Extracted>>,
    draft: DraftReply,
    image: ProcessImage.ImageOracle,
    provider: MercadoPago.ProviderReply,
    patchFault: Option<string>)

  /** A post together with what the collaborators answer for it. */
  datatype PostInput = PostInput(post: RawPost, oracle: PostOracle)

  /** Whether each of the run's status writes throws (and with what). */
  datatype StatusOracle = StatusOracle(processing: Option<string>, completed: Option<string>, failed: Option<string>)

  /** The arguments of a `createPreference` call; `currency` is `None` when
      the caller passes none. */
  datatype PreferenceArgs = PreferenceArgs(handle: string, title: string, price: int, imageUrl: string,
                                           currency: Option<string>)

  /** The observable steps of a run, in order. */
  datatype Effect =
    | StatusWritten(status: RequestStatus)
    | Examined(caption: string)
    | DraftInserted(id: ProductId)
    | PreferenceRequested(args: PreferenceArgs)
    | ProductPatched(id: ProductId)

  /** What one post contributes: nothing (skipped), a caught fault, or a listing. */
  datatype PostOutcome = Skipped | Faulted(message: string) | Listed(listing: ProductArg)

  datatype PostRun = PostRun(store: Store, outcome: PostOutcome, effects: seq<Effect>)
  datatype LoopRun = LoopRun(store: Store, valid: seq<ProductArg>, effects: seq<Effect>)

  /** The run's return value. */
  datatype Summary = Summary(processed: nat, valid: seq<ProductArg>)
  datatype Run = Run(store: Store, outcome: Outcome<Summary>, effects: seq<Effect>)

  const RequestNotFound := "Request not found"
  const NullIndexError := "TypeError: Cannot read properties of null (reading '0')"
  const Currency := "CLP"

  /** `post.caption || ""`. */
  function Caption(post: RawPost): string
  {
    OrElse(post.caption, "")
  }

  /** The extraction answer is usable: it did not throw, is not null and its
      price is not `null` (a missing price still passes). */
  predicate Accepted(post: RawPost, o: PostOracle)
  {
    var x := o.extract(Caption(post));
    x.Ok? && x.value.Some? && !x.value.value.price.PriceNull?
  }

  function Ext(post: RawPost, o: PostOracle): Extracted
    requires Accepted(post, o)
  {
    o.extract(Caption(post)).value.value
  }

  function PriceValue(p: PriceField): Option<int>
  {
    if p.PriceNumber? then Some(p.value) else None
  }

  /** The draft saved right after extraction. */
  function Draft(post: RawPost, e: Extracted): ProductArg
  {
    ProductArg(e.productName, PriceValue(e.price), Some(Currency), DropEmpty(e.size),
               post.displayUrl, None, post.url, None)
  }

  /** A preference is asked for only with a positive price and a non-empty name. */
  predicate WantsLink(e: Extracted)
  {
    e.price.PriceNumber? && e.price.value > 0 && Truthy(e.productName)
  }

  /** The image URL the run keeps: the stage's answer, or the post's display
      URL when that answer is null or empty. */
  function KeptImage(post: RawPost, image: ProcessImage.ImageOracle): (u: string)
    ensures post.displayUrl != "" ==> u != ""
    ensures ProcessImage.Succeeds(image) && Truthy(image.publicUrl.value) ==> u == image.publicUrl.value.value
    ensures !ProcessImage.Succeeds(image) || !Truthy(image.publicUrl.value) ==> u == post.displayUrl
  {
    OrElse(ProcessImage.ProcessAndUpload(post.displayUrl, image).url, post.displayUrl)
  }

  /** The link kept from a preference call: a thrown error and a null or
      empty answer both leave it undefined. */
  function KeptLink(call: MercadoPago.PreferenceCall): (l: Option<string>)
    ensures l.Some? <==> call.result.Ok? && Truthy(call.result.value)
    ensures l.Some? ==> l == call.result.value
  {
    if call.result.Ok? && Truthy(call.result.value) then call.result.value else None
  }

  /** `createPreference` called with `a`. */
  function Ask(s: Store, a: PreferenceArgs, reply: MercadoPago.ProviderReply): MercadoPago.PreferenceCall
  {
    MercadoPago.CreatePreference(s, a.handle, a.title, a.price, a.imageUrl, a.currency, reply)
  }

  /** The preference the run asks for a post: the extracted name and price,
      the kept image, and no currency. */
  function Asked(handle: string, post: RawPost, e: Extracted, o: PostOracle): PreferenceArgs
    requires WantsLink(e)
  {
    PreferenceArgs(handle, e.productName.value, e.price.value, KeptImage(post, o.image), None)
  }

  /** The link the run keeps for a post: asked for only when price and name
      allow, and kept only when the call answers a non-empty URL. */
  function LinkFor(s: Store, handle: string, post: RawPost, e: Extracted, o: PostOracle): Option<string>
  {
    if WantsLink(e) then KeptLink(Ask(s, Asked(handle, post, e, o), o.provider)) else None
  }

  /** The entry a listed post adds to the results: its draft with the kept
      image and link. */
  function Listing(post: RawPost, e: Extracted, o: PostOracle, link: Option<string>): ProductArg
  {
    Draft(post, e).(processedImageUrl := Some(KeptImage(post, o.image)), mercadoPagoLink := link)
  }

  /** Only the merchants table of the store decides a preference call. */
  lemma LinkReadsMerchants(s: Store, t: Store, handle: string, post: RawPost, e: Extracted, o: PostOracle)
    requires t.merchants == s.merchants
    ensures LinkFor(t, handle, post, e, o) == LinkFor(s, handle, post, e, o)
  {
    assert Merchants.GetMerchant(t, handle) == Merchants.GetMerchant(s, handle);
  }

  /** The preference requests among `effects`, in order. */
  function PreferenceRequests(effects: seq<Effect>): seq<PreferenceArgs>
  {
    if effects == [] then []
    else (if effects[0].PreferenceRequested? then [effects[0].args] else []) + PreferenceRequests(effects[1..])
  }

  lemma {:induction false} PreferenceRequestsAppend(a: seq<Effect>, b: seq<Effect>)
    ensures PreferenceRequests(a + b) == PreferenceRequests(a) + PreferenceRequests(b)
  {
    if a != [] {
      assert (a + b)[1..] == a[1..] + b;
      PreferenceRequestsAppend(a[1..], b);
    } else {
      assert a + b == b;
    }
  }

  /** `requests` with `rid` marked `completed` (as `addProducts` leaves it). */
  function Completing(requests: map<RequestId, CatalogRequest>, rid: RequestId): (m: map<RequestId, CatalogRequest>)
    ensures m.Keys == requests.Keys
    ensures forall q :: q in requests && q != rid ==> m[q] == requests[q]
    ensures rid in requests ==> m[rid] == requests[rid].(status := Completed)
  {
    if rid in requests then requests[rid := requests[rid].(status := Completed)] else requests
  }

  /** What a post may do to the store: append products (never removing or
      re-keying earlier ones, nor changing their request, post or original
      image), mark the request `completed`, and nothing else.  Keeping the
      store valid is stated separately. */
  ghost predicate Preserves(s: Store, t: Store, rid: RequestId)
  {
    && ProductsKept(s, t)
    && t.merchants == s.merchants
    && (t.requests == s.requests || t.requests == Completing(s.requests, rid))
  }

  /** A post may change the request's status, but nothing else of its record. */
  lemma RecordKept(s: Store, t: Store, rid: RequestId)
    requires rid in s.requests && Preserves(s, t, rid)
    ensures rid in t.requests && t.requests[rid] == s.requests[rid].(status := t.requests[rid].status)
  {
  }

  lemma PreservesTrans(s: Store, t: Store, u: Store, rid: RequestId)
    requires Preserves(s, t, rid) && Preserves(t, u, rid)
    ensures Preserves(s, u, rid)
  {
    if rid in s.requests {
      assert Completing(Completing(s.requests, rid), rid) == Completing(s.requests, rid);
    }
  }

  /** One post: everything inside the per-post `try`. */
  function Post(s: Store, rid: RequestId, handle: string, post: RawPost, o: PostOracle): (r: PostRun)
    ensures |r.effects| > 0 && r.effects[0] == Examined(Caption(post))
    ensures !Accepted(post, o) ==> r.store == s && !r.outcome.Listed?
    ensures !Accepted(post, o) && o.extract(Caption(post)).Ok? ==> r.outcome == Skipped
    ensures o.extract(Caption(post)).Fault? ==> r.outcome == Faulted(o.extract(Caption(post)).message)
    ensures Accepted(post, o) && o.draft.DraftThrows? ==> r.store == s && r.outcome == Faulted(o.draft.message)
    ensures Accepted(post, o) && !o.draft.DraftThrows? && rid in s.requests ==>
              && |r.store.products| == |s.products| + 1
              && r.store.products[|s.products|].id == ProductId(s.nextId)
              && r.store.products[|s.products|].igPostUrl == post.url
              && r.store.products[|s.products|].originalImageUrl == post.displayUrl
              && StatusOf(r.store, rid) == Some(Completed)
    ensures Accepted(post, o) && o.draft.DraftReturnsNothing? ==> r.outcome.Faulted?
    ensures r.outcome.Listed? <==>
              Accepted(post, o) && o.draft.DraftReturnsIds? && rid in s.requests && o.patchFault.None?
    ensures r.outcome.Listed? ==>
              && r.outcome.listing.currency == Some(Currency)
              && r.outcome.listing.originalImageUrl == post.displayUrl
              && r.outcome.listing.igPostUrl == post.url
              && r.outcome.listing.productName == Ext(post, o).productName
              && r.outcome.listing.processedImageUrl == Some(KeptImage(post, o.image))
    ensures r.outcome.Listed? ==>
              r.outcome.listing == Listing(post, Ext(post, o), o, LinkFor(s, handle, post, Ext(post, o), o))
    ensures PreferenceRequests(r.effects) ==
              if Accepted(post, o) && o.draft.DraftReturnsIds? && rid in s.requests && WantsLink(Ext(post, o))
              then [PreferenceArgs(handle, Ext(post, o).productName.value, Ext(post, o).price.value, KeptImage(post, o.image), None)]
              else []
    ensures r.outcome.Listed? && r.outcome.listing.mercadoPagoLink.Some? ==> WantsLink(Ext(post, o))
    ensures Preserves(s, r.store, rid) && |r.store.products| <= |s.products| + 1
    ensures Valid(s) ==> Valid(r.store)
    ensures Valid(s) ==> r.store.products[..|s.products|] == s.products
  {
    var examined := [Examined(Caption(post))];
    PreferenceRequestsAppend(examined, []);
    match o.extract(Caption(post))
    case Fault(m) => PostRun(s, Faulted(m), examined)
    case Ok(x) =>
      if x.None? || x.value.price.PriceNull? then PostRun(s, Skipped, examined)
      else SaveDraft(s, rid, handle, post, x.value, o, examined)
  }

  /** A post whose extraction was accepted: save the draft, then enrich it. */
  function SaveDraft(s: Store, rid: RequestId, handle: string, post: RawPost, e: Extracted, o: PostOracle,
                     examined: seq<Effect>): (r: PostRun)
    ensures |examined| <= |r.effects| && r.effects[..|examined|] == examined
    ensures o.draft.DraftThrows? ==> r.store == s && r.outcome == Faulted(o.draft.message)
    ensures !o.draft.DraftThrows? && rid in s.requests ==>
              && |r.store.products| == |s.products| + 1
              && r.store.products[|s.products|].id == ProductId(s.nextId)
              && r.store.products[|s.products|].igPostUrl == post.url
              && r.store.products[|s.products|].originalImageUrl == post.displayUrl
              && StatusOf(r.store, rid) == Some(Completed)
    ensures o.draft.DraftReturnsNothing? ==> r.outcome.Faulted?
    ensures r.outcome.Listed? <==> o.draft.DraftReturnsIds? && rid in s.requests && o.patchFault.None?
    ensures r.outcome.Listed? ==>
              && r.outcome.listing.currency == Some(Currency)
              && r.outcome.listing.originalImageUrl == post.displayUrl
              && r.outcome.listing.igPostUrl == post.url
              && r.outcome.listing.productName == e.productName
              && r.outcome.listing.processedImageUrl == Some(KeptImage(post, o.image))
              && (r.outcome.listing.mercadoPagoLink.Some? ==> WantsLink(e))
              && r.outcome.listing == Listing(post, e, o, LinkFor(s, handle, post, e, o))
    ensures PreferenceRequests(r.effects) == PreferenceRequests(examined) +
              if o.draft.DraftReturnsIds? && rid in s.requests && WantsLink(e)
              then [PreferenceArgs(handle, e.productName.value, e.price.value, KeptImage(post, o.image), None)]
              else []
    ensures Preserves(s, r.store, rid) && |r.store.products| <= |s.products| + 1
    ensures Valid(s) ==> Valid(r.store)
    ensures Valid(s) ==> r.store.products[..|s.products|] == s.products
  {
    PreferenceRequestsAppend(examined, []);
    if o.draft.DraftThrows? then PostRun(s, Faulted(o.draft.message), examined)
    else if rid !in s.requests then PostRun(s, Faulted(NonexistentDocument), examined)
    else Drafted(s, rid, handle, post, e, o, examined)
  }

  /** The draft write succeeded (the request exists, so the handler commits). */
  function Drafted(s: Store, rid: RequestId, handle: string, post: RawPost, e: Extracted, o: PostOracle,
                   examined: seq<Effect>): (r: PostRun)
    requires rid in s.requests && !o.draft.DraftThrows?
    ensures |examined| <= |r.effects| && r.effects[..|examined|] == examined
    ensures && |r.store.products| == |s.products| + 1
            && r.store.products[|s.products|].id == ProductId(s.nextId)
            && r.store.products[|s.products|].igPostUrl == post.url
            && r.store.products[|s.products|].originalImageUrl == post.displayUrl
            && StatusOf(r.store, rid) == Some(Completed)
    ensures o.draft.DraftReturnsNothing? ==> r.outcome.Faulted?
    ensures r.outcome.Listed? <==> o.draft.DraftReturnsIds? && o.patchFault.None?
    ensures r.outcome.Listed? ==>
              && r.outcome.listing.currency == Some(Currency)
              && r.outcome.listing.originalImageUrl == post.displayUrl
              && r.outcome.listing.igPostUrl == post.url
              && r.outcome.listing.productName == e.productName
              && r.outcome.listing.processedImageUrl == Some(KeptImage(post, o.image))
              && (r.outcome.listing.mercadoPagoLink.Some? ==> WantsLink(e))
              && r.outcome.listing == Listing(post, e, o, LinkFor(s, handle, post, e, o))
    ensures PreferenceRequests(r.effects) == PreferenceRequests(examined) +
              if o.draft.DraftReturnsIds? && WantsLink(e)
              then [PreferenceArgs(handle, e.productName.value, e.price.value, KeptImage(post, o.image), None)]
              else []
    ensures Preserves(s, r.store, rid)
    ensures Valid(s) ==> Valid(r.store)
    ensures Valid(s) ==> r.store.products[..|s.products|] == s.products
  {
    var d := InsertDraft(s, rid, post, e, examined);
    if o.draft.DraftReturnsNothing? then d
    else
      var r := Enrich(d.store, handle, post, e, Draft(post, e), ProductId(s.nextId), o, d.effects);
      PreservesTrans(s, d.store, r.store, rid);
      LinkReadsMerchants(s, d.store, handle, post, e, o);
      FreshPatchKeepsPrefix(s, d.store.products, r.store.products);
      r
  }

  /** The draft write itself: `addProducts` commits the draft as the last
      product and marks the request `completed`; the run then cannot read an
      id from its (empty) answer. */
  function InsertDraft(s: Store, rid: RequestId, post: RawPost, e: Extracted, examined: seq<Effect>): (r: PostRun)
    requires rid in s.requests
    ensures |r.store.products| == |s.products| + 1
    ensures r.store.products[..|s.products|] == s.products
    ensures r.store.products[|s.products|].id == ProductId(s.nextId)
    ensures StoredAs(r.store.products[|s.products|], rid, Draft(post, e))
    ensures StatusOf(r.store, rid) == Some(Completed)
    ensures Preserves(s, r.store, rid)
    ensures Valid(s) ==> Valid(r.store)
    ensures r.outcome == Faulted(NullIndexError)
    ensures r.effects == examined + [DraftInserted(ProductId(s.nextId))]
    ensures PreferenceRequests(r.effects) == PreferenceRequests(examined)
  {
    var c := AddProductsHandler(s, rid, [Draft(post, e)]);
    var id := ProductId(s.nextId);
    PreferenceRequestsAppend(examined, [DraftInserted(id)]);
    PreferenceRequestsAppend([DraftInserted(id)], []);
    PostRun(c.store, Faulted(NullIndexError), examined + [DraftInserted(id)])
  }

  /** The rest of a post once its draft is saved under `id`. */
  function Enrich(s: Store, handle: string, post: RawPost, e: Extracted, draft: ProductArg, id: ProductId,
                  o: PostOracle, effects: seq<Effect>): (r: PostRun)
    ensures o.patchFault.Some? ==> r.store == s && r.outcome == Faulted(o.patchFault.value)
    ensures o.patchFault.None? ==>
              && r.outcome.Listed?
              && r.outcome.listing == draft.(processedImageUrl := Some(KeptImage(post, o.image)),
                                             mercadoPagoLink := LinkFor(s, handle, post, e, o))
              && (r.outcome.listing.mercadoPagoLink.Some? ==> WantsLink(e))
    ensures |r.store.products| == |s.products| && ProductsKept(s, r.store)
    ensures forall j :: 0 <= j < |s.products| ==> Products.SameListing(s.products[j], r.store.products[j])
    ensures forall j :: 0 <= j < |s.products| && s.products[j].id != id ==> r.store.products[j] == s.products[j]
    ensures r.store.requests == s.requests && r.store.merchants == s.merchants && r.store.nextId == s.nextId
    ensures Valid(s) ==> Valid(r.store)
    ensures |effects| <= |r.effects| && r.effects[..|effects|] == effects
    ensures PreferenceRequests(r.effects) == PreferenceRequests(effects) +
              if WantsLink(e) then [PreferenceArgs(handle, e.productName.value, e.price.value, KeptImage(post, o.image), None)] else []
  {
    var processed := KeptImage(post, o.image);
    var link := LinkFor(s, handle, post, e, o);
    var asked := if WantsLink(e) then [PreferenceRequested(Asked(handle, post, e, o))] else [];
    PreferenceRequestsAppend(effects, asked);
    PreferenceRequestsAppend(effects + asked, [ProductPatched(id)]);
    PreferenceRequestsAppend([ProductPatched(id)], []);
    match o.patchFault
    case Some(m) => PostRun(s, Faulted(m), effects + asked)
    case None =>
      PostRun(Products.UpdateProduct(s, id, processed, link),
              Listed(draft.(processedImageUrl := Some(processed), mercadoPagoLink := link)),
              effects + asked + [ProductPatched(id)])
  }

  /** Patching only the product with the fresh id `nextId` leaves the
      products of a valid store as they were. */
  lemma FreshPatchKeepsPrefix(s: Store, d: seq<Product>, t: seq<Product>)
    requires |s.products| <= |d| == |t| && d[..|s.products|] == s.products
    requires forall j :: 0 <= j < |d| && d[j].id != ProductId(s.nextId) ==> t[j] == d[j]
    ensures Valid(s) ==> t[..|s.products|] == s.products
  {
    if Valid(s) {
      forall j | 0 <= j < |s.products|
        ensures t[j] == s.products[j]
      {
        assert d[j] == s.products[j];
      }
    }
  }

  lemma PrefixTrans<T>(a: seq<T>, b: seq<T>, c: seq<T>)
    requires |a| <= |b| <= |c|
    ensures b[..|a|] == a && c[..|b|] == b ==> c[..|a|] == a
  {
    if b[..|a|] == a && c[..|b|] == b {
      assert c[..|a|] == c[..|b|][..|a|];
    }
  }

  function ListingOf(p: PostOutcome): seq<ProductArg>
  {
    if p.Listed? then [p.listing] else []
  }

  /** One post as the loop sees it: the store only moves forward and a
      listing is priced in the run's currency. */
  function Step(s: Store, rid: RequestId, handle: string, x: PostInput): (r: PostRun)
    ensures Preserves(s, r.store, rid) && |r.store.products| <= |s.products| + 1
    ensures r.outcome.Listed? ==> r.outcome.listing.currency == Some(Currency)
  {
    Post(s, rid, handle, x.post, x.oracle)
  }

  /** The loop over the posts, in input order. */
  function Posts(s: Store, rid: RequestId, handle: string, items: seq<PostInput>): (r: LoopRun)
    ensures |r.valid| <= |items|
    ensures Preserves(s, r.store, rid) && |r.store.products| <= |s.products| + |items|
    ensures forall k :: 0 <= k < |r.valid| ==> r.valid[k].currency == Some(Currency)
    decreases |items|
  {
    if items == [] then LoopRun(s, [], [])
    else
      var p := Step(s, rid, handle, items[0]);
      var rest := Posts(p.store, rid, handle, items[1..]);
      PreservesTrans(s, p.store, rest.store, rid);
      LoopRun(rest.store, ListingOf(p.outcome) + rest.valid, p.effects + rest.effects)
  }

  /** The loop keeps the store valid: every post's draft gets a fresh id. */
  lemma {:induction false} PostsKeepValid(s: Store, rid: RequestId, handle: string, items: seq<PostInput>)
    ensures Valid(s) ==> Valid(Posts(s, rid, handle, items).store)
    decreases |items|
  {
    if items != [] {
      var p := Post(s, rid, handle, items[0].post, items[0].oracle);
      PostsKeepValid(p.store, rid, handle, items[1..]);
    }
  }

  /** The loop only appends products: every product of a valid store is still
      there, at its position, with every field as it was. */
  lemma {:induction false} PostsOnlyAppend(s: Store, rid: RequestId, handle: string, items: seq<PostInput>)
    ensures Valid(s) ==> Posts(s, rid, handle, items).store.products[..|s.products|] == s.products
    decreases |items|
  {
    if items != [] {
      var p := Post(s, rid, handle, items[0].post, items[0].oracle);
      var rest := Posts(p.store, rid, handle, items[1..]);
      PostsOnlyAppend(p.store, rid, handle, items[1..]);
      PrefixTrans(s.products, p.store.products, rest.store.products);
    } else {
      assert s.products[..|s.products|] == s.products;
    }
  }

  /** `ingestInstagramPosts` of the ingestion workflow. */
  function IngestInstagramPosts(s: Store, rid: RequestId, items: seq<PostInput>, st: StatusOracle): (r: Run)
    ensures rid !in s.requests ==> r == Run(s, Fault(RequestNotFound), [])
    ensures rid in s.requests && st.processing.Some? ==> r == Run(s, Fault(st.processing.value), [])
    ensures rid in s.requests && st.processing.None? ==> |r.effects| > 0 && r.effects[0] == StatusWritten(Processing)
    ensures r.outcome.Ok? <==> rid in s.requests && st.processing.None? && st.completed.None?
    ensures r.outcome.Ok? ==>
              && StatusOf(r.store, rid) == Some(Completed)
              && r.outcome.value.processed == |r.outcome.value.valid|
              && |r.outcome.value.valid| <= |items|
              && r.effects[|r.effects| - 1] == StatusWritten(Completed)
    ensures r.outcome.Ok? ==>
              r.outcome.value.valid == Posts(SetStatus(s, rid, Processing), rid, s.requests[rid].handle, items).valid
    ensures rid in s.requests && st.processing.None? && st.completed.Some? && st.failed.None? ==>
              StatusOf(r.store, rid) == Some(Failed) && r.outcome == Fault(st.completed.value)
    ensures rid in s.requests && st.processing.None? && st.completed.Some? && st.failed.Some? ==>
              && r.outcome == Fault(st.failed.value)
              && r.store == Posts(SetStatus(s, rid, Processing), rid, s.requests[rid].handle, items).store
    ensures rid in s.requests ==> r.store.requests[rid] == s.requests[rid].(status := r.store.requests[rid].status)
    ensures rid in s.requests && st.processing.None? ==>
              r.store.products == Posts(SetStatus(s, rid, Processing), rid, s.requests[rid].handle, items).store.products
    ensures ProductsKept(s, r.store)
    ensures Valid(s) ==> r.store.products[..|s.products|] == s.products
    ensures r.store.requests.Keys == s.requests.Keys && r.store.merchants == s.merchants
    ensures forall q :: q in s.requests && q != rid ==> r.store.requests[q] == s.requests[q]
    ensures Valid(s) ==> Valid(r.store)
  {
    if rid !in s.requests then Run(s, Fault(RequestNotFound), [])
    else
      var handle := s.requests[rid].handle;
      if st.processing.Some? then Run(s, Fault(st.processing.value), [])
      else
        var loop := Posts(SetStatus(s, rid, Processing), rid, handle, items);
        PostsKeepValid(SetStatus(s, rid, Processing), rid, handle, items);
        PostsOnlyAppend(SetStatus(s, rid, Processing), rid, handle, items);
        RecordKept(SetStatus(s, rid, Processing), loop.store, rid);
        var effects := [StatusWritten(Processing)] + loop.effects;
        match st.completed
        case None =>
          Run(SetStatus(loop.store, rid, Completed), Ok(Summary(|loop.valid|, loop.valid)),
              effects + [StatusWritten(Completed)])
        case Some(m) =>
          if st.failed.None? then Run(SetStatus(loop.store, rid, Failed), Fault(m), effects + [StatusWritten(Failed)])
          else Run(loop.store, Fault(st.failed.value), effects)
  }

  // ---------------------------------------------------------------------------
  // Properties of the run

  lemma ConcatAssoc<T>(x: seq<T>, y: seq<T>, z: seq<T>)
    ensures x + (y + z) == (x + y) + z
  {
  }

  /** Running two lists of posts one after the other is running their
      concatenation: each post starts from the store the previous one left. */
  lemma {:induction false} PostsAppend(s: Store, rid: RequestId, handle: string, a: seq<PostInput>, b: seq<PostInput>)
    ensures var ra := Posts(s, rid, handle, a);
            var rb := Posts(ra.store, rid, handle, b);
            Posts(s, rid, handle, a + b) == LoopRun(rb.store, ra.valid + rb.valid, ra.effects + rb.effects)
    decreases |a|
  {
    if a == [] {
      assert a + b == b;
      var rb := Posts(s, rid, handle, b);
      assert Posts(s, rid, handle, a) == LoopRun(s, [], []);
      assert [] + rb.valid == rb.valid && [] + rb.effects == rb.effects;
    } else {
      assert (a + b)[0] == a[0] && (a + b)[1..] == a[1..] + b;
      var p := Post(s, rid, handle, a[0].post, a[0].oracle);
      var ra' := Posts(p.store, rid, handle, a[1..]);
      var rb := Posts(ra'.store, rid, handle, b);
      PostsAppend(p.store, rid, handle, a[1..], b);
      assert Posts(s, rid, handle, a) == LoopRun(ra'.store, ListingOf(p.outcome) + ra'.valid, p.effects + ra'.effects);
      assert Posts(s, rid, handle, a + b)
          == LoopRun(rb.store, ListingOf(p.outcome) + (ra'.valid + rb.valid), p.effects + (ra'.effects + rb.effects));
      ConcatAssoc(ListingOf(p.outcome), ra'.valid, rb.valid);
      ConcatAssoc(p.effects, ra'.effects, rb.effects);
    }
  }

  /** A post that throws contributes nothing to the result, and the posts
      after it still run, from the store it left. */
  lemma FaultIsolated(s: Store, rid: RequestId, handle: string, a: seq<PostInput>, x: PostInput, b: seq<PostInput>)
    requires Post(Posts(s, rid, handle, a).store, rid, handle, x.post, x.oracle).outcome.Faulted?
    ensures var ra := Posts(s, rid, handle, a);
            var px := Post(ra.store, rid, handle, x.post, x.oracle);
            Posts(s, rid, handle, a + [x] + b).valid == ra.valid + Posts(px.store, rid, handle, b).valid
  {
    var ra := Posts(s, rid, handle, a);
    assert a + [x] + b == a + ([x] + b);
    PostsAppend(s, rid, handle, a, [x] + b);
    FaultedHeadSkipped(ra.store, rid, handle, x, b);
  }

  /** A list headed by a faulting post lists what its tail lists, from the
      store the fault left. */
  lemma FaultedHeadSkipped(s: Store, rid: RequestId, handle: string, x: PostInput, b: seq<PostInput>)
    requires Post(s, rid, handle, x.post, x.oracle).outcome.Faulted?
    ensures Posts(s, rid, handle, [x] + b).valid ==
              Posts(Post(s, rid, handle, x.post, x.oracle).store, rid, handle, b).valid
  {
    assert ([x] + b)[0] == x && ([x] + b)[1..] == b;
    assert ListingOf(Post(s, rid, handle, x.post, x.oracle).outcome) == [];
  }

  /** When the draft was saved, a later fault (the missing id, or the patch)
      leaves it in the table exactly as first written. */
  lemma DraftSurvivesFault(s: Store, rid: RequestId, handle: string, post: RawPost, o: PostOracle)
    requires Accepted(post, o) && rid in s.requests
    requires o.draft.DraftReturnsNothing? || (o.draft.DraftReturnsIds? && o.patchFault.Some?)
    ensures var r := Post(s, rid, handle, post, o);
            && r.outcome.Faulted?
            && |r.store.products| == |s.products| + 1
            && r.store.products[..|s.products|] == s.products
            && StoredAs(r.store.products[|s.products|], rid, Draft(post, Ext(post, o)))
  {
    var c := AddProductsHandler(s, rid, [Draft(post, Ext(post, o))]);
    assert c.outcome.Ok?;
  }

  /** A listed post is stored as listed: the document inserted for it carries
      the listing's processed image and link, and the request's id. */
  lemma ListedIsStored(s: Store, rid: RequestId, handle: string, post: RawPost, o: PostOracle)
    requires Valid(s)
    requires Accepted(post, o) && o.draft.DraftReturnsIds? && rid in s.requests && o.patchFault.None?
    ensures var r := Post(s, rid, handle, post, o);
            && |r.store.products| == |s.products| + 1
            && r.store.products[|s.products|].id == ProductId(s.nextId)
            && StoredAs(r.store.products[|s.products|], rid, r.outcome.listing)
  {
    var e := Ext(post, o);
    var draft := Draft(post, e);
    var c := AddProductsHandler(s, rid, [draft]);
    var id := ProductId(s.nextId);
    var n := |s.products|;
    assert c.store.products[n].id == id;
    assert StoredAs(c.store.products[n], rid, draft);
    assert Products.IndexOfProduct(c.store.products, id) == Some(n);
    var r := Post(s, rid, handle, post, o);
    assert r.store == Products.UpdateProduct(c.store, id, KeptImage(post, o.image), r.outcome.listing.mercadoPagoLink);
  }

  /** An error from the payment provider is swallowed: the post is still
      listed, without a link. */
  lemma PreferenceErrorSwallowed(s: Store, rid: RequestId, handle: string, post: RawPost, o: PostOracle)
    requires Accepted(post, o) && o.draft.DraftReturnsIds? && rid in s.requests && o.patchFault.None?
    requires o.provider.ProviderError?
    ensures var r := Post(s, rid, handle, post, o);
            r.outcome.Listed? && r.outcome.listing.mercadoPagoLink.None?
  {
  }

  /** With a merchant for the handle, a positive price, a name and a non-empty
      link from the provider, the listing carries that link. */
  lemma ProviderLinkKept(s: Store, rid: RequestId, handle: string, post: RawPost, o: PostOracle, link: string)
    requires Accepted(post, o) && o.draft.DraftReturnsIds? && rid in s.requests && o.patchFault.None?
    requires WantsLink(Ext(post, o)) && Merchants.GetMerchant(s, handle).Some?
    requires o.provider == MercadoPago.ProviderCreated(Some(link)) && link != ""
    ensures var r := Post(s, rid, handle, post, o);
            r.outcome.Listed? && r.outcome.listing.mercadoPagoLink == Some(link)
  {
    var e := Ext(post, o);
    var call := Ask(s, Asked(handle, post, e, o), o.provider);
    assert call.result == Ok(Some(link));
    assert LinkFor(s, handle, post, e, o) == Some(link);
  }

  /** The run asks for its preference without a currency, so the seller's
      checkout is created in the provider's default currency while the
      listing says `CLP`. */
  lemma PreferenceInDefaultCurrency(s: Store, rid: RequestId, handle: string, post: RawPost, o: PostOracle)
    requires Accepted(post, o) && o.draft.DraftReturnsIds? && rid in s.requests && WantsLink(Ext(post, o))
    requires Merchants.GetMerchant(s, handle).Some?
    ensures var r := Post(s, rid, handle, post, o);
            var asked := PreferenceRequests(r.effects);
            && |asked| == 1 && asked[0].currency.None?
            && Ask(s, asked[0], o.provider).sent.Some?
            && Ask(s, asked[0], o.provider).sent.value.body.items[0].currencyId == MercadoPago.DefaultCurrency
            && (r.outcome.Listed? ==> r.outcome.listing.currency == Some(Currency))
  {
  }

  /** Nothing deduplicates: the same post listed twice in a row yields two
      documents with the same post URL. */
  lemma SamePostTwice(s: Store, rid: RequestId, handle: string, x: PostInput)
    requires Accepted(x.post, x.oracle) && x.oracle.draft.DraftReturnsIds? && x.oracle.patchFault.None?
    requires rid in s.requests
    ensures var r := Posts(s, rid, handle, [x, x]);
            && |r.valid| == 2
            && |r.store.products| == |s.products| + 2
            && r.store.products[|s.products|].igPostUrl == x.post.url
            && r.store.products[|s.products| + 1].igPostUrl == x.post.url
  {
    var p1 := Post(s, rid, handle, x.post, x.oracle);
    var p2 := Post(p1.store, rid, handle, x.post, x.oracle);
    assert [x, x][1..] == [x];
    assert [x][1..] == [];
    assert rid in p1.store.requests;
    assert |p1.store.products| == |s.products| + 1;
    assert p2.store.products[|s.products| + 1].igPostUrl == x.post.url;
    assert p2.store.products[|s.products|].igPostUrl == x.post.url;
    assert Posts(p1.store, rid, handle, [x]).store == p2.store;
  }

  /** Posts that are skipped, or whose draft write throws, leave the store as
      it was and list nothing. */
  lemma {:induction false} NothingSaved(s: Store, rid: RequestId, handle: string, items: seq<PostInput>)
    requires forall k :: 0 <= k < |items| ==>
               !Accepted(items[k].post, items[k].oracle) || items[k].oracle.draft.DraftThrows?
    ensures Posts(s, rid, handle, items).store == s
    ensures Posts(s, rid, handle, items).valid == []
    decreases |items|
  {
    if items != [] {
      NothingSaved(s, rid, handle, items[1..]);
    }
  }

  /** As `addProducts` is written, its validator requires the processed image
      URL that the draft leaves out, so every draft write throws and commits
      nothing. */
  lemma AsWrittenDraftRejected(s: Store, rid: RequestId, post: RawPost, e: Extracted)
    ensures AddProducts(s, rid, [Draft(post, e)]) == Committed(s, Fault(ValidationError))
  {
    RejectsMissingProcessedImage(s, rid, [Draft(post, e)], 0);
  }

  /** Hence, against the `addProducts` as written, a run whose status writes
      succeed completes with nothing listed and no product written. */
  lemma AsWrittenRunListsNothing(s: Store, rid: RequestId, items: seq<PostInput>)
    requires rid in s.requests
    requires forall k :: 0 <= k < |items| ==> items[k].oracle.draft == DraftThrows(ValidationError)
    ensures var r := IngestInstagramPosts(s, rid, items, StatusOracle(None, None, None));
            && r.outcome == Ok(Summary(0, []))
            && r.store.products == s.products
            && StatusOf(r.store, rid) == Some(Completed)
  {
    NothingSaved(SetStatus(s, rid, Processing), rid, s.requests[rid].handle, items);
  }

  /** With the extraction stage of this repository, a post without a caption
      is skipped before anything is written. */
  lemma EmptyCaptionSkipped(s: Store, rid: RequestId, handle: string, post: RawPost, o: PostOracle,
                            instruction: string, ask: string -> ModelReply, parse: string -> Option<Extracted>)
    requires forall c :: o.extract(c) == Ok(ExtractProductData(instruction, c, ask, parse).result)
    requires post.caption.None? || post.caption == Some("")
    ensures Post(s, rid, handle, post, o) == PostRun(s, Skipped, [Examined("")])
  {
    assert Caption(post) == "";
    assert o.extract("") == Ok(None);
  }
}
